=== FILE: README.md ===
# dclassify: a Dafny model of the naive-Bayes classifier

This project models `lib/classifier.js` of dclassify, a small naive-Bayes-style
document classifier. It covers six parts:

- A `Document` is an id and a token list. `Document.add` inserts tokens
  without duplicates and walks nested arrays recursively.
- A `DataSet` maps labels to lists of documents. `DataSet.add` appends items
  to a label's list.
- `Classifier` defaults its options with JavaScript's `||`.
- `train` makes a counting pass, then turns the counts into a probability
  table. Each entry is count / item count, per category and token.
- `classify` scores every category as a product over its probability row and
  ranks the categories by score. It reports the top two categories and two
  ratios.
- `validate` classifies a labeled test set, applies the low-confidence
  fallback and tallies the outcome.

Each part is a pure function over immutable datatypes. JavaScript objects
used as ordered dictionaries become a `map` plus a `seq` giving the key order.
That order is insertion order, which is JavaScript's order for every key that
is not an array index. Probabilities are exact `real`s. Two run-time failures of
the source become explicit error values:

- `classify` with fewer than two categories (a property read on `undefined`);
- `validate` through an unbound receiver (a call of `undefined`).

One case the source does not treat as a failure becomes an error value as
well. Training with an empty category computes 0/0 (line 59), stores the NaN
entry (line 63) and returns normally. The model stops with
`Err(EmptyCategory)` there instead.

The source can also throw on inputs outside the model's types, such as
`Document.add(null)` or a label named after an `Object.prototype` property.
Those are listed under "## Left out".

Modules, one per file:

- `Wrappers`: `Option` and `Result`.
- `Collections`: sequence, multiset and counter-map facts.
- `Documents`, `DataSets`: the two containers.
- `Model`: options, the classifier record and construction.
- `Training`, `Scoring`, `Validation`: the three methods.
- `Fixture`: the corpus and test document of `test/test.js`, with the table
  and both classifications they produce.

Behaviours of the code worth knowing:

- A missing document id is only logged (lib/classifier.js:200-202), so
  construction never fails.
- The `Document` constructor keeps duplicate tokens (line 204). Training counts
  every element of a token list (lines 29-38), so an entry is occurrences over
  item count, not documents-containing over item count.
  `Training.OccurrencesCountDocuments` proves the two agree when token lists
  are duplicate-free.
- A probability threshold of 0 cannot be configured, because `0 || 0.5` is 0.5
  (line 7).
- An empty category produces NaN entries only when some token was seen. With
  an empty vocabulary no entry is ever computed (lines 55-65), and training
  gives an empty table. The model's `Err(EmptyCategory)` follows the same
  condition.
- The ranking does not define an order for equal scores (line 168). The model
  does not pin one either.

## Model

| member | source | states |
|---|---|---|
| Model.NewClassifier | lib/classifier.js:4-12 | Inverse scoring is on only for an explicit `true`. A threshold of 0 or none becomes 0.5, so the result's threshold is never 0; any other threshold is kept. An empty or missing default category becomes none. Every table starts empty. |
| Documents.NewDocument | lib/classifier.js:199-205 | The new document keeps the given id, even an empty one, since a missing id is only logged. It keeps the given token list as is, and an absent list becomes the empty list. |
| Documents.Add | lib/classifier.js:208-219 | Adding keeps the id and keeps the old tokens in place as a prefix. The new token set is the old one plus every string of the input. A duplicate-free list stays duplicate-free. |
| Documents.AddEach | lib/classifier.js:213-218 | Adding an array element by element has the same guarantees as adding one input. |
| Documents.AddTokenPresentOrAppended | lib/classifier.js:209-212 | Adding a string already present changes nothing. Adding a new one appends it at the end. |
| Documents.ConstructorKeepsDuplicatesAddDoesNot | lib/classifier.js:199-219 | The constructor keeps its token list verbatim, duplicates included. Adding the same strings one by one to an empty document gives each distinct string exactly once. |
| DataSets.Add | lib/classifier.js:191-194 | The label's list becomes its old list followed by the new items. Every other label keeps its list. Known labels keep their order, a new label goes last, and the key order stays consistent with the map. JavaScript's order differs for array-index labels (see "## Left out"). |
| Training.Bump | lib/classifier.js:31-38 | One token occurrence raises exactly one counter, the token's count for the category, by one. The token becomes a key. Item counts are untouched. |
| Training.CountTokens | lib/classifier.js:29-39 | After one item's token list, each counter for the category has grown by the number of times the token occurs in the list. Other categories' counters are unchanged. |
| Training.CountItems | lib/classifier.js:25-40 | After a category's items, each counter has grown by the token's occurrences across all the items' lists. |
| Training.CountCategories | lib/classifier.js:20-41 | After the category loop, each (token, category) counter is the token's occurrences in that category's items. Each item count is the category's number of items. The token keys are exactly the tokens seen. |
| Training.CountAllSummary | lib/classifier.js:17-41 | The first pass, run from empty tables, states its counts in terms of the training set alone: occurrences per category, item counts per category and the vocabulary. |
| Training.WriteRow | lib/classifier.js:55-65 | The row gets an entry for every token of the vocabulary, equal to count / total with a missing count read as 0. Entries already present for other tokens are kept. |
| Training.Normalise | lib/classifier.js:53-66 | The second pass fails exactly when the vocabulary is non-empty and some category has no items; the error names such a category. Otherwise every category gets a row over the whole vocabulary with count / item-count entries. With an empty vocabulary no row is created. |
| Training.Trained | lib/classifier.js:16-66 | The classifier left by the two passes keeps its options, and its categories are among the training labels. It is well formed when the counts are consistent, the labels are duplicate-free, and the table has one row per label over the whole vocabulary (no rows at all when no token was seen). |
| Training.Train | lib/classifier.js:16-67 | On a fresh classifier, training fails exactly when some token was seen and some category is empty. On success the classifier is well formed and keeps its options. Each count is the token's occurrences in the category's items, each category count is its item count, and the vocabulary is every token of the set. |
| Training.TrainedProbabilities | lib/classifier.js:53-66 | The trained table has one row per training category (none when no token was seen). Each row covers the global vocabulary. Each entry is the token's occurrences in the category over the category's item count. |
| Training.TrainedEntry | lib/classifier.js:57-63 | When every category has an item, training succeeds and every (category, vocabulary token) entry exists and equals occurrences / item count, including 0 for a token the category never saw. |
| Training.TrainedRow | lib/classifier.js:53-66 | With non-empty categories and vocabulary, a category's whole row gives each vocabulary token's occurrences per item of the category. With duplicate-free token lists that is the share of its items holding the token (`Training.OccurrencesCountDocuments`). |
| Training.OccurrencesCountDocuments | lib/classifier.js:29-38 | With duplicate-free token lists, counting occurrences counts the documents that hold the token, at most all of them. The count equals all of them exactly when every document holds the token, and is 0 exactly when none does. |
| Training.TrainedEntryBounds | lib/classifier.js:57-59 | With duplicate-free token lists and no empty category, training succeeds and every (category, vocabulary token) entry lies in [0, 1]. It is 1 exactly when every item of the category holds the token, and 0 exactly when none does. |
| Training.TrainedTableInUnitRange | lib/classifier.js:53-66 | With duplicate-free token lists, the whole trained table lies in [0, 1]. |
| Scoring.Factor | lib/classifier.js:135-139 | A token's factor is its probability p when the item holds it. When it does not, the factor is 1 - p with inverse scoring and 1 without. A factor of p in [0, 1] lies in [0, 1]. |
| Scoring.ScoreLoop | lib/classifier.js:128-141 | The scoring loop for one category starts at 1 and multiplies in each token's factor in the row's key order. It ends with the product of all factors, the value `Score` defines. |
| Scoring.ProductPermutation | lib/classifier.js:131-141 | A product of factors does not depend on the order in which they are multiplied. |
| Scoring.ScoreReorder | lib/classifier.js:126-143 | A category's score does not depend on the order in which its row's tokens are visited. |
| Scoring.ScoreInUnitRange | lib/classifier.js:126-143 | With every entry of the row in [0, 1], the score lies in [0, 1]. |
| Scoring.ScoreIgnoresForeignTokens | lib/classifier.js:131-141 | Item tokens outside the row have no effect. Two items that agree on the row's tokens score the same. |
| Scoring.ScoreZeroFactor | lib/classifier.js:135-139 | One zero factor zeroes the score. That is a present token with probability 0, or, with inverse scoring, an absent token with probability 1. |
| Scoring.InverseNeverRaisesScore | lib/classifier.js:137-139 | With entries in [0, 1], turning inverse scoring on never raises a score. |
| Scoring.Insert | lib/classifier.js:146-154 | Inserting an entry into a list ranked non-increasing by score keeps it ranked. It adds exactly that entry. |
| Scoring.Rank | lib/classifier.js:168 | The ranking is a permutation of its input, ordered non-increasing by score as `compareCategories` asks. |
| Scoring.Scores | lib/classifier.js:126-167 | The scores list has one entry per trained category, in the order the categories were trained. Each entry carries that category's score. |
| Scoring.ScoresNoDup | lib/classifier.js:156-167 | The scores list holds no entry twice. |
| Scoring.ScoresEntry | lib/classifier.js:159-164 | Each entry of the scores list names a trained category and carries that category's score. |
| Scoring.ScoresHasCategory | lib/classifier.js:126-164 | Every trained category appears in the scores list with its score. |
| Scoring.RankingFacts | lib/classifier.js:168-171 | In any ranked permutation of the scores, the head has a maximal score. The second entry is a different category, with a maximal score among the rest. |
| Scoring.Classify | lib/classifier.js:120-182 | `classify` fails exactly when fewer than two categories are trained. Otherwise `probabilities` is a ranked permutation of the (category, score) pairs. `category` is its head, with a maximal score. `secondCategory` is the next entry, a different category, maximal among the rest. The ratios are top / sum and top / runner-up, absent when the divisor is 0. |
| Scoring.SumBounds | lib/classifier.js:157-166 | Scores in [0, m] sum to a value in [0, n·m], and each score is at most the sum. |
| Scoring.ScoresInUnitRange | lib/classifier.js:126-143 | With a table in [0, 1], every category's score lies in [0, 1]. |
| Scoring.ClassifyRatios | lib/classifier.js:157-173 | With a table in [0, 1]: `probability` is absent exactly when every category scores 0, and otherwise lies in [1/n, 1] for n categories. A present `timesMoreLikely` is at least 1. |
| Validation.Predict | lib/classifier.js:90-93 | A result with a probability at or below the threshold is replaced by the default category when a non-empty one is configured. With no default, an empty default, or a confident or NaN probability, the classifier's choice stands. |
| Validation.PredictItem | lib/classifier.js:89-93 | Predicting fails exactly when `classify` does. A prediction is the fallback applied to `classify`'s result, so it is a trained category or the configured default. |
| Validation.RecordWrong | lib/classifier.js:96-103 | A wrong prediction adds one to the total and to the wrong count and appends the item id. The predicted category's counter, and no other, goes up by one, so the counters' sum grows by one. |
| Validation.Answer | lib/classifier.js:94-104 | An answered item adds one to the total. It counts as correct exactly when the prediction equals its label. Otherwise it adds one wrong answer, its id and one to the predicted category's counter. |
| Validation.ValidateItem | lib/classifier.js:86-104 | One item fails exactly when the receiver cannot classify. Otherwise it adds one to the total and keeps the tallies balanced: correct + wrong = total, one id per wrong item, counters summing to wrong, and no counter at 0. Through the classifier, the item counts as correct exactly when its prediction is its label. Otherwise its id is appended and only the predicted category's counter rises. |
| Validation.ValidateItems | lib/classifier.js:85-106 | A category's items add their number to the total and keep the tallies balanced. They fail exactly when there is an item and the receiver cannot classify. |
| Validation.ItemsTally | lib/classifier.js:85-106 | Through the classifier, a category's items add to the correct count the items predicted as their label. They append, in order, the ids of the other items and raise each category's counter by the number of items wrongly predicted as it. |
| Validation.ValidateCategories | lib/classifier.js:77-108 | The loop over the test categories adds every item to the total once and keeps the tallies balanced. |
| Validation.CategoriesTally | lib/classifier.js:77-108 | Through the classifier, the loop over the test categories adds up the per-category correct counts and counters and concatenates the wrong ids in category order. |
| Validation.FinishedTally | lib/classifier.js:70-79 | Starting from zero tallies, the loop counts every test item and leaves the tallies balanced. Through the classifier, its counts are exactly the correct and wrong predictions over the whole test set. |
| Validation.ReportOf | lib/classifier.js:110-117 | The report copies the tallies. Accuracy is correct / (correct + wrong), absent when that is 0/0. It lies in [0, 1] and is 1 exactly when nothing was wrong. |
| Validation.Run | lib/classifier.js:69-118 | A run through a receiver counts every test item once. It fails exactly when the receiver cannot classify and the set is not empty. Every wrong-category key holds a positive count. Through the classifier, correct, the wrong ids and each category's counter are those of the predictions over the test set. Accuracy is correct / total, absent for an empty set. |
| Validation.Validate | lib/classifier.js:69-118 | With the classifier as receiver, validation fails only when fewer than two categories are trained and the test set is non-empty. Otherwise correct + wrong = total. `correct` counts the items predicted as their label, and `wrongItems` lists the other items' ids in test-set order. Each category's wrong counter is the number of items wrongly predicted as it, and a key exists only with a positive count. Every predicted category is a trained one or the default. Accuracy is correct / total, absent for an empty test set. |
| Validation.ErrorIsInsufficientCategories | lib/classifier.js:89 | A failing validation through the classifier always reports the too-few-categories error of `classify`. |
| Validation.ValidateAsWritten | lib/classifier.js:78-89 | As written, validation fails exactly on a non-empty test set, because `classify` is looked up on the wrong receiver. An empty set yields a zero total and no accuracy. |
| Validation.UnboundErrors | lib/classifier.js:89 | Every failure through the unbound receiver is the missing-`classify` error. |
| Fixture.CorpusShape | test/test.js:6-16 | The two `data.add` calls build the corpus data set, and it is well formed. |
| Fixture.TrainedTable | test/test.js:26 | Training on the corpus gives the table bad = {a 1, b 2/3, c 2/3, d 1/3, e 1/3} and good = {a 0, b 1/3, c 1/3, d 2/3, e 2/3}. |
| Fixture.FixtureScores | test/test.js:30-41 | For the document [b, d, e]: with inverse scoring, bad scores 0 (every bad item has a) and good scores 8/81. Without it, bad scores 2/27 and good 4/27. |
| Fixture.FixtureRanking | test/test.js:32 | "good" ranks first and "bad" second, with or without inverse scoring, whatever the order of the categories. |
| Fixture.FixtureClassification | test/test.js:32-41 | With inverse scoring the probability is 1 and the ratio to a zero runner-up is undefined. Without it the probability is 2/3 and "good" is twice as likely. |
| Fixture.InverseRun | test/test.js:20-33 | A classifier built with `applyInverse: true` and trained on the corpus puts the test document in "good" with probability 1. |
| Fixture.PlainRun | test/test.js:35-41 | A classifier built with no options and trained on the corpus puts the test document in "good" with probability 2/3, twice as likely as "bad". |
| Fixture.ValidateOnCorpus | lib/classifier.js:69-118 | Validating against the six-item corpus fails on the first item as written. With the classifier as receiver and two categories trained, it succeeds and counts all six items. |

`classify` does not change the classifier. That holds by construction here,
because `Classify` is a pure function of the classifier and the document.

## Left out

- Console output is not modelled: the warning the `Document` constructor logs
  for a missing id (lib/classifier.js:200-202) and all printing in
  `test/test.js`. Neither affects a result, and `test/test.js` asserts nothing,
  so it serves only as the fixture.
- IEEE-754 arithmetic is not modelled. Scores are exact reals, so long products
  never underflow. Each NaN or Infinity the source can produce is an explicit
  value here:
  - 0/0 in training is `Err(EmptyCategory)`;
  - a zero sum of scores makes `probability` `None`;
  - a zero runner-up makes `timesMoreLikely` `None`;
  - 0/0 accuracy is `None`.

  A NaN probability fails the `<=` test of line 91, and `LowConfidence` keeps
  that: `None` is never low confidence.
- Training.Normalise: the source writes NaN rows for an empty category and
  carries on; the model stops with an error instead. This happens only when
  the vocabulary is non-empty.
- Scoring.Rank: the tie order of `Array.prototype.sort` (line 168) depends on
  the engine. The contracts state only the ordering by score and the
  permutation. The body happens to be a stable insertion sort, but nothing
  relies on that.
- Training.Train: only training a freshly constructed classifier is modelled.
  Retraining the same instance accumulates counts and keeps old rows
  (lines 31-38, 60-63).
- JavaScript objects are maps plus a key order, and a map has no inherited
  keys. The source's objects do inherit from `Object.prototype`, and the
  model does not follow what that does to names such as `constructor`,
  `toString` or `__proto__`:
  - a token so named finds the inherited value at line 31, so training creates
    no row for it and then skips it at line 56;
  - a token `__proto__` also finds `Object.prototype` at line 31, so line 32
    never runs, and line 35 sets `Object.prototype[category]` to 1. Every row
    created afterwards at line 32 inherits that 1, so line 34 takes the `else`
    branch and the token's first occurrence in that category is recorded as 2
    (line 37): the pollution inflates later counts;
  - `DataSet.add` with such a label calls `concat` on the inherited value,
    which has none (line 192), and throws;
  - a category or wrong-category key so named behaves differently again
    (lines 82, 97).
- DataSets.Add: a new label always goes last in the model's key order.
  JavaScript lists array-index keys (such as "0" or "7") first, in numeric
  order, before every other key, so a data set with such labels is trained and
  validated in a different category order. Only the tie order of the ranking
  and the order of the wrong ids depend on that order.
- `Document.add(null)` throws, because `typeof null` is `"object"` and line 213
  reads `null.length`. `TokenInput` has no null, so that input is not
  modelled. Numbers, booleans, `undefined` and empty arrays are skipped, as
  `Ignored`.
- Dynamic typing is replaced by types:
  - The `typeof` dispatch of `Document.add` becomes the `TokenInput` datatype.
  - Truthiness tests on counters (lines 31, 34, 57, 97) become map-membership
    tests. A stored counter is never 0, so the two agree.
  - A non-boolean truthy `applyInverse` is not modelled. The option is an
    optional boolean.
- Each category's items are a list here. `for (item in items)` (line 85) visits
  array indices in order, which is the same thing.
- The `module.exports` wiring (lines 223-225) is not modelled.
- The fixture lemmas prove the test outcomes for any data set of the corpus's
  shape, and for any well-formed classifier holding the corpus table whatever
  its key order. They do not model the test driver's own statements.

## Findings

| source | as written | input that shows it | evidently intended | confidence | as-written member | corrected member |
|---|---|---|---|---|---|---|
| lib/classifier.js:78, 89-92 | `validateCategory` is called as a plain function, so inside it `this` is not the classifier. `this.classify` is not a function, and the call throws. | Any test set with at least one item, for example the training corpus of `test/test.js` | `classify`, the threshold and the default category are those of the classifier `validate` was called on | not executed | Validation.ValidateAsWritten, Fixture.ValidateOnCorpus | Validation.Validate |

=== FILE: collections.dfy ===
/** Small facts about sequences and maps shared by the classifier model. */
module Collections {

  /** The elements of a sequence, as a set. */
  function Elems<T>(s: seq<T>): set<T>
  {
    set x | x in s
  }

  /** Only the empty sequence has no elements. */
  lemma ElemsEmpty<T>(s: seq<T>)
    ensures Elems(s) == {} <==> s == []
  {
    if s != [] {
      assert s[0] in Elems(s);
    }
  }

  /** No element occurs twice (the shape of a de-duplicated token list). */
  predicate NoDup<T(==)>(s: seq<T>)
  {
    forall i, j :: 0 <= i < j < |s| ==> s[i] != s[j]
  }

  /** Dropping the head of a duplicate-free sequence keeps it duplicate-free,
      and the head does not occur again. */
  lemma NoDupTail<T>(s: seq<T>)
    requires NoDup(s) && s != []
    ensures NoDup(s[1..]) && s[0] !in s[1..]
    ensures Elems(s) == {s[0]} + Elems(s[1..])
  {
    assert forall k :: 0 <= k < |s[1..]| ==> s[1..][k] == s[k + 1];
    assert s == [s[0]] + s[1..];
  }

  /** A duplicate-free sequence has as many elements as positions. */
  lemma {:induction false} NoDupCardinality<T>(s: seq<T>)
    requires NoDup(s)
    ensures |Elems(s)| == |s|
  {
    if s != [] {
      NoDupTail(s);
      NoDupCardinality(s[1..]);
    } else {
      ElemsEmpty(s);
    }
  }

  /** Removing the element at one position of a duplicate-free sequence
      removes exactly that element. */
  lemma NoDupRemoveAt<T>(s: seq<T>, i: nat)
    requires NoDup(s) && i < |s|
    ensures NoDup(s[..i] + s[i + 1..])
    ensures Elems(s[..i] + s[i + 1..]) == Elems(s) - {s[i]}
  {
    var rest := s[..i] + s[i + 1..];
    assert forall k :: 0 <= k < |rest| ==> rest[k] == s[if k < i then k else k + 1];
    forall t | t in Elems(s) - {s[i]} ensures t in Elems(rest) {
      var k :| 0 <= k < |s| && s[k] == t;
      assert rest[if k < i then k else k - 1] == t;
    }
  }

  /** Removing a position keeps only elements the sequence had. */
  lemma ElemsRemoveAt<T>(s: seq<T>, i: nat)
    requires i < |s|
    ensures Elems(s[..i] + s[i + 1..]) <= Elems(s)
  {
    var rest := s[..i] + s[i + 1..];
    forall t | t in Elems(rest) ensures t in Elems(s) {
      var k :| 0 <= k < |rest| && rest[k] == t;
      assert rest[k] == s[if k < i then k else k + 1];
    }
  }

  /** Concatenation is associative. */
  lemma ConcatAssoc<T>(a: seq<T>, b: seq<T>, c: seq<T>)
    ensures a + b + c == a + (b + c)
  {
  }

  /** A sequence is its prefix, one element and its suffix. */
  lemma SplitAt<T>(s: seq<T>, i: nat)
    requires i < |s|
    ensures s == s[..i] + [s[i]] + s[i + 1..]
  {
  }

  /** Removing a position removes one copy of its element. */
  lemma MultisetRemoveAt<T>(s: seq<T>, i: nat)
    requires i < |s|
    ensures multiset(s) == multiset{s[i]} + multiset(s[..i] + s[i + 1..])
  {
    SplitAt(s, i);
  }

  /** In a duplicate-free sequence every element occurs at most once. */
  lemma {:induction false} NoDupOccursOnce<T>(s: seq<T>, x: T)
    requires NoDup(s)
    ensures multiset(s)[x] == if x in s then 1 else 0
    decreases |s|
  {
    if s != [] {
      assert s == [s[0]] + s[1..];
      assert NoDup(s[1..]) by {
        forall i, j | 0 <= i < j < |s[1..]| ensures s[1..][i] != s[1..][j] {
          assert s[1..][i] == s[i + 1] && s[1..][j] == s[j + 1];
        }
      }
      NoDupOccursOnce(s[1..], x);
      if s[0] == x {
        assert x !in s[1..] by {
          forall k | 0 <= k < |s[1..]| ensures s[1..][k] != x {
            assert s[1..][k] == s[k + 1];
          }
        }
      }
    }
  }

  /** A sequence whose elements each occur at most once has no duplicates. */
  lemma OccursOnceNoDup<T>(s: seq<T>)
    requires forall x :: multiset(s)[x] <= 1
    ensures NoDup(s)
  {
    forall i, j | 0 <= i < j < |s| ensures s[i] != s[j] {
      assert s == s[..j] + s[j..];
      assert s[i] in s[..j] && s[j] in s[j..];
      assert multiset(s)[s[j]] == multiset(s[..j])[s[j]] + multiset(s[j..])[s[j]];
    }
  }

  /** Rearranging a duplicate-free sequence keeps it duplicate-free. */
  lemma PermutationNoDup<T>(a: seq<T>, b: seq<T>)
    requires multiset(a) == multiset(b) && NoDup(a)
    ensures NoDup(b)
  {
    forall x ensures multiset(b)[x] <= 1 {
      NoDupOccursOnce(a, x);
    }
    OccursOnceNoDup(b);
  }

  /** Matching the head of one permutation with some element of the other
      leaves permutations of each other. */
  lemma PermutationRemove<T>(a: seq<T>, b: seq<T>, i: nat)
    requires multiset(a) == multiset(b) && a != [] && i < |b| && b[i] == a[0]
    ensures multiset(a[1..]) == multiset(b[..i] + b[i + 1..])
  {
    assert b == b[..i] + ([b[i]] + b[i + 1..]);
    assert a == [a[0]] + a[1..];
    var rest := b[..i] + b[i + 1..];
    calc {
      multiset(a[1..]);
      multiset(a) - multiset{a[0]};
      multiset(b) - multiset{b[i]};
      multiset(b[..i]) + multiset{b[i]} + multiset(b[i + 1..]) - multiset{b[i]};
      multiset(rest);
    }
  }

  /** Maps with the same keys and the same value at each key are equal. */
  lemma MapExtensionality<K, V>(m1: map<K, V>, m2: map<K, V>)
    requires m1.Keys == m2.Keys && forall k :: k in m1 ==> m1[k] == m2[k]
    ensures m1 == m2
  {
  }

  /** Some key of a non-empty map; fixed once and for all, so that sums over
      a map are well defined. */
  ghost function PickKey(m: map<string, nat>): (k: string)
    requires m != map[]
    ensures k in m
  {
    var k :| k in m; k
  }

  /** The sum of the values of a map of counters. */
  ghost function SumValues(m: map<string, nat>): nat
    decreases |m|
  {
    if m == map[] then 0
    else
      var k := PickKey(m);
      assert m.Keys == (m - {k}).Keys + {k};
      m[k] + SumValues(m - {k})
  }

  /** The sum does not depend on which key is taken out first. */
  lemma {:induction false} SumValuesRemove(m: map<string, nat>, k: string)
    requires k in m
    ensures SumValues(m) == m[k] + SumValues(m - {k})
    decreases |m|
  {
    var j := PickKey(m);
    if j != k {
      assert (m - {k}).Keys == (m - {k} - {j}).Keys + {j};
      assert m.Keys == (m - {j}).Keys + {j};
      SumValuesRemove(m - {j}, k);
      SumValuesRemove(m - {k}, j);
      assert m - {j} - {k} == m - {k} - {j};
    }
  }

  /** The value a counter map holds for a key, 0 when the key is absent. */
  function CounterOf(m: map<string, nat>, k: string): nat
  {
    if k in m then m[k] else 0
  }

  /** Incrementing one counter (creating it at 1 when absent) raises the sum by one. */
  lemma SumValuesIncrement(m: map<string, nat>, k: string)
    ensures SumValues(m[k := CounterOf(m, k) + 1]) == SumValues(m) + 1
  {
    var m' := m[k := CounterOf(m, k) + 1];
    SumValuesRemove(m', k);
    if k in m {
      SumValuesRemove(m, k);
      assert m' - {k} == m - {k};
    } else {
      assert m' - {k} == m;
    }
  }

  /** A ratio k / n of counts with k <= n lies in [0, 1], is 1 exactly when
      k = n and 0 exactly when k = 0. */
  lemma RatioOfCounts(k: nat, n: nat)
    requires 0 < n && k <= n
    ensures 0.0 <= k as real / n as real <= 1.0
    ensures k as real / n as real == 1.0 <==> k == n
    ensures k as real / n as real == 0.0 <==> k == 0
  {
  }
}

=== FILE: datasets.dfy ===
/** Labeled item collections (`DataSet`, lib/classifier.js:186-195). The
    JavaScript object `categorizedItems` is an ordered dictionary; it is
    modelled as a map together with the insertion order of its keys. */
module DataSets {
  import opened Collections
  import opened Documents

  datatype DataSet = DataSet(labels: seq<string>, categorizedItems: map<string, seq<Document>>)

  /** The key order lists each category of the map exactly once. */
  predicate Valid(ds: DataSet)
  {
    NoDup(ds.labels) && Elems(ds.labels) == ds.categorizedItems.Keys
  }

  /** `new DataSet()`. */
  const Empty := DataSet([], map[])

  /** The items stored under a category, or none when the category is unknown. */
  function ItemsOf(ds: DataSet, category: string): seq<Document>
  {
    if category in ds.categorizedItems then ds.categorizedItems[category] else []
  }

  /** `DataSet.add`: the category's list becomes its old list (empty if the category
      is new) followed by the new items; every other category keeps its list;
      known labels keep their order and a new category goes last. */
  function Add(ds: DataSet, category: string, items: seq<Document>): (r: DataSet)
    requires Valid(ds)
    ensures Valid(r)
    ensures category in r.categorizedItems && r.categorizedItems[category] == ItemsOf(ds, category) + items
    ensures forall l :: l != category ==> ItemsOf(r, l) == ItemsOf(ds, l)
    ensures r.categorizedItems.Keys == ds.categorizedItems.Keys + {category}
    ensures |ds.labels| <= |r.labels| && r.labels[..|ds.labels|] == ds.labels
  {
    if category in ds.categorizedItems then
      ds.(categorizedItems := ds.categorizedItems[category := ds.categorizedItems[category] + items])
    else
      DataSet(ds.labels + [category], ds.categorizedItems[category := items])
  }

  /** The number of items over all labels. */
  function TotalItems(ds: DataSet): nat
  {
    CountItemsUnder(ds, ds.labels)
  }

  function CountItemsUnder(ds: DataSet, labels: seq<string>): nat
  {
    if labels == [] then 0 else |ItemsOf(ds, labels[0])| + CountItemsUnder(ds, labels[1..])
  }

  /** Every document's token list is free of duplicates, as it is when the
      documents are built with `Document.add`. */
  ghost predicate DuplicateFree(ds: DataSet)
  {
    forall l, i :: l in ds.categorizedItems && 0 <= i < |ds.categorizedItems[l]| ==>
      NoDup(ds.categorizedItems[l][i].tokens)
  }
}

=== FILE: documents.dfy ===
/** Documents: an id and an ordered list of token strings (lib/classifier.js:199-220). */
module Documents {
  import opened Wrappers
  import opened Collections

  datatype Document = Document(id: string, tokens: seq<string>)

  /** What `Document.add` is handed. The source dispatches on `typeof`: a
      string is a token, a non-empty array is walked element by element, and
      a number, a boolean, `undefined` or an empty array is skipped. `null`
      has no case here: the source throws on it (line 213 reads `null.length`). */
  datatype TokenInput = Token(token: string) | Tokens(items: seq<TokenInput>) | Ignored

  /** The `Document` constructor keeps the token list it is given (no
      de-duplication), or starts empty when none is given. A missing id is
      only logged: the document is made all the same. */
  function NewDocument(id: string, tokens: Option<seq<string>>): (r: Document)
    ensures r.id == id
    ensures tokens.Some? ==> r.tokens == tokens.value
    ensures tokens.None? ==> r.tokens == []
  {
    Document(id, if tokens.Some? then tokens.value else [])
  }

  /** The strings of an input, in the order `Document.add` visits them. */
  function Flatten(input: TokenInput): seq<string>
    decreases input
  {
    match input
    case Token(t) => [t]
    case Tokens(xs) => FlattenEach(xs)
    case Ignored => []
  }

  function FlattenEach(xs: seq<TokenInput>): seq<string>
    decreases xs
  {
    if xs == [] then [] else Flatten(xs[0]) + FlattenEach(xs[1..])
  }

  /** `Document.add`: a string is appended unless already present; an array is
      added element by element, recursively. The old tokens stay, in place, as
      a prefix; the new token set is the old one plus every string of the
      input; a duplicate-free list stays duplicate-free. */
  function Add(d: Document, input: TokenInput): (r: Document)
    ensures r.id == d.id
    ensures |d.tokens| <= |r.tokens| && r.tokens[..|d.tokens|] == d.tokens
    ensures Elems(r.tokens) == Elems(d.tokens) + Elems(Flatten(input))
    ensures NoDup(d.tokens) ==> NoDup(r.tokens)
    decreases input
  {
    match input
    case Token(t) =>
      if t in d.tokens then d else d.(tokens := d.tokens + [t])
    case Tokens(xs) => AddEach(d, xs)
    case Ignored => d
  }

  /** The loop of `Document.add` over an array (lib/classifier.js:215-217). */
  function AddEach(d: Document, xs: seq<TokenInput>): (r: Document)
    ensures r.id == d.id
    ensures |d.tokens| <= |r.tokens| && r.tokens[..|d.tokens|] == d.tokens
    ensures Elems(r.tokens) == Elems(d.tokens) + Elems(FlattenEach(xs))
    ensures NoDup(d.tokens) ==> NoDup(r.tokens)
    decreases xs
  {
    if xs == [] then d
    else
      var d' := Add(d, xs[0]);
      var r := AddEach(d', xs[1..]);
      assert r.tokens[..|d.tokens|] == d'.tokens[..|d.tokens|];
      r
  }

  /** Adding a string that is already present changes nothing; adding a new
      one puts it at the end and nowhere else. */
  lemma AddTokenPresentOrAppended(d: Document, t: string)
    ensures t in d.tokens ==> Add(d, Token(t)) == d
    ensures t !in d.tokens ==> Add(d, Token(t)).tokens == d.tokens + [t]
  {
  }

  /** The constructor keeps duplicates, while building the same document
      with `add` yields each distinct token exactly once. */
  lemma ConstructorKeepsDuplicatesAddDoesNot(id: string, ts: seq<string>)
    ensures NewDocument(id, Some(ts)).tokens == ts
    ensures var d := Add(NewDocument(id, None), Tokens(seq(|ts|, i requires 0 <= i < |ts| => Token(ts[i]))));
      NoDup(d.tokens) && Elems(d.tokens) == Elems(ts)
  {
    var xs := seq(|ts|, i requires 0 <= i < |ts| => Token(ts[i]));
    FlattenTokens(ts);
    assert Flatten(Tokens(xs)) == ts;
  }

  lemma {:induction false} FlattenTokens(ts: seq<string>)
    ensures FlattenEach(seq(|ts|, i requires 0 <= i < |ts| => Token(ts[i]))) == ts
    decreases |ts|
  {
    var xs := seq(|ts|, i requires 0 <= i < |ts| => Token(ts[i]));
    if ts != [] {
      assert xs[1..] == seq(|ts[1..]|, i requires 0 <= i < |ts[1..]| => Token(ts[1..][i]));
      FlattenTokens(ts[1..]);
      assert ts == [ts[0]] + ts[1..];
    }
  }
}

=== FILE: fixture.dfy ===
/** The training corpus and test document of test/test.js, with the table and
    the two classifications they lead to. */
module Fixture {
  import opened Wrappers
  import opened Collections
  import opened Documents
  import DataSets
  import opened Model
  import opened Training
  import opened Scoring
  import Validation

  const BadItems := [Document("item1", ["a", "b", "c"]), Document("item2", ["a", "b", "c"]), Document("item3", ["a", "d", "e"])]
  const GoodItems := [Document("itemA", ["c", "d"]), Document("itemB", ["e"]), Document("itemC", ["b", "d", "e"])]

  /** The training set of test/test.js. */
  const Corpus := DataSets.DataSet(["bad", "good"], map["bad" := BadItems, "good" := GoodItems])

  const TestDoc := Document("testDoc", ["b", "d", "e"])

  /** The training set is what the two `data.add` calls of test/test.js:6-16
      build, and it is well formed. */
  lemma CorpusShape()
    ensures DataSets.Add(DataSets.Add(DataSets.Empty, "bad", BadItems), "good", GoodItems) == Corpus
    ensures ShapedLikeCorpus(Corpus)
  {
  }

  /** The five tokens of the corpus. */
  const Tokens := ["a", "b", "c", "d", "e"]

  lemma BadTokens()
    ensures TokensOf(BadItems) == {"a", "b", "c", "d", "e"}
  {
    assert BadItems[1..] == [BadItems[1], BadItems[2]];
    assert BadItems[1..][1..] == [BadItems[2]];
    assert Elems(BadItems[0].tokens) == {"a", "b", "c"};
    assert Elems(BadItems[2].tokens) == {"a", "d", "e"};
  }

  lemma GoodTokens()
    ensures TokensOf(GoodItems) == {"b", "c", "d", "e"}
  {
    assert GoodItems[1..] == [GoodItems[1], GoodItems[2]];
    assert GoodItems[1..][1..] == [GoodItems[2]];
    assert Elems(GoodItems[0].tokens) == {"c", "d"};
    assert Elems(GoodItems[1].tokens) == {"e"};
    assert Elems(GoodItems[2].tokens) == {"b", "d", "e"};
  }

  /** The table test/test.js prints after training (lines 28 and 38). */
  const BadRow := map["a" := 1.0, "b" := 2.0 / 3.0, "c" := 2.0 / 3.0, "d" := 1.0 / 3.0, "e" := 1.0 / 3.0]
  const GoodRow := map["a" := 0.0, "b" := 1.0 / 3.0, "c" := 1.0 / 3.0, "d" := 2.0 / 3.0, "e" := 2.0 / 3.0]

  lemma BadOccurrences()
    ensures Occurrences("a", BadItems) == 3 && Occurrences("b", BadItems) == 2 && Occurrences("c", BadItems) == 2
    ensures Occurrences("d", BadItems) == 1 && Occurrences("e", BadItems) == 1
  {
    assert BadItems[1..] == [BadItems[1], BadItems[2]];
    assert BadItems[1..][1..] == [BadItems[2]];
  }

  lemma GoodOccurrences()
    ensures Occurrences("a", GoodItems) == 0 && Occurrences("b", GoodItems) == 1 && Occurrences("c", GoodItems) == 1
    ensures Occurrences("d", GoodItems) == 2 && Occurrences("e", GoodItems) == 2
  {
    assert GoodItems[1..] == [GoodItems[1], GoodItems[2]];
    assert GoodItems[1..][1..] == [GoodItems[2]];
  }

  /** Each entry of the printed table is the token's occurrences per item of
      the category. The corpus's token lists are duplicate-free, so that is
      the share of the category's items holding the token. */
  lemma BadRowRates()
    ensures PerItemRates(BadItems, {"a", "b", "c", "d", "e"}) == BadRow
  {
    BadOccurrences();
    var m := PerItemRates(BadItems, {"a", "b", "c", "d", "e"});
    SameRow(m, BadRow);
  }

  lemma GoodRowRates()
    ensures PerItemRates(GoodItems, {"a", "b", "c", "d", "e"}) == GoodRow
  {
    GoodOccurrences();
    var m := PerItemRates(GoodItems, {"a", "b", "c", "d", "e"});
    SameRow(m, GoodRow);
  }

  lemma SameRow(r: map<string, real>, expected: map<string, real>)
    requires expected.Keys == {"a", "b", "c", "d", "e"} && r.Keys == expected.Keys
    requires r["a"] == expected["a"] && r["b"] == expected["b"] && r["c"] == expected["c"]
    requires r["d"] == expected["d"] && r["e"] == expected["e"]
    ensures r == expected
  {
  }

  lemma TokenSet()
    ensures Elems(Tokens) == {"a", "b", "c", "d", "e"}
  {
  }

  /** The shape of the corpus, stated without naming it. */
  predicate ShapedLikeCorpus(ds: DataSets.DataSet)
  {
    ds.labels == ["bad", "good"] && ds.categorizedItems == map["bad" := BadItems, "good" := GoodItems]
  }

  /** What the table of the corpus depends on. */
  predicate TrainsLikeCorpus(ds: DataSets.DataSet)
  {
    && DataSets.Valid(ds)
    && Vocabulary(ds) == {"a", "b", "c", "d", "e"}
    && ds.categorizedItems.Keys == {"bad", "good"}
    && ds.categorizedItems["bad"] == BadItems
    && ds.categorizedItems["good"] == GoodItems
  }

  lemma ShapedVocabulary(ds: DataSets.DataSet)
    requires ShapedLikeCorpus(ds)
    ensures TrainsLikeCorpus(ds)
  {
    assert DataSets.Valid(ds);
    assert Vocabulary(ds) == {"a", "b", "c", "d", "e"} by {
      CorpusVocabulary(ds);
      BadTokens();
      GoodTokens();
    }
    assert ds.categorizedItems.Keys == {"bad", "good"};
  }

  lemma CorpusVocabulary(ds: DataSets.DataSet)
    requires ShapedLikeCorpus(ds)
    ensures Vocabulary(ds) == TokensOf(BadItems) + TokensOf(GoodItems)
  {
    assert DataSets.ItemsOf(ds, "bad") == BadItems;
    assert DataSets.ItemsOf(ds, "good") == GoodItems;
    assert TokensUnder(ds, ["good"]) == TokensOf(GoodItems) by {
      assert ["good"][1..] == [];
    }
    assert ds.labels[1..] == ["good"];
  }

  lemma TrainedBadRow(cl: Classifier, ds: DataSets.DataSet)
    requires Untrained(cl) && TrainsLikeCorpus(ds)
    ensures DataSets.Valid(ds) && Train(cl, ds).Ok?
    ensures "bad" in Train(cl, ds).value.probabilities && Train(cl, ds).value.probabilities["bad"] == BadRow
  {
    BadRowRates();
    TrainedRow(cl, ds, "bad");
  }

  lemma TrainedGoodRow(cl: Classifier, ds: DataSets.DataSet)
    requires Untrained(cl) && TrainsLikeCorpus(ds)
    ensures DataSets.Valid(ds) && Train(cl, ds).Ok?
    ensures "good" in Train(cl, ds).value.probabilities && Train(cl, ds).value.probabilities["good"] == GoodRow
  {
    GoodRowRates();
    TrainedRow(cl, ds, "good");
  }

  /** Training on the corpus yields the table of test/test.js (lines 26-28
      and 36-38): each entry is the token's occurrences per item of the
      category. */
  lemma TrainedTable(cl: Classifier, ds: DataSets.DataSet)
    requires Untrained(cl) && TrainsLikeCorpus(ds)
    ensures DataSets.Valid(ds) && Train(cl, ds).Ok?
    ensures Train(cl, ds).value.probabilities == map["bad" := BadRow, "good" := GoodRow]
  {
    TrainedBadRow(cl, ds);
    TrainedGoodRow(cl, ds);
    var p := Train(cl, ds).value.probabilities;
    assert p.Keys == {"bad", "good"} by {
      TrainedProbabilities(cl, ds);
    }
    MapOfTwo(p, "bad", BadRow, "good", GoodRow);
  }

  lemma MapOfTwo<V>(m: map<string, V>, k1: string, v1: V, k2: string, v2: V)
    requires m.Keys == {k1, k2} && m[k1] == v1 && m[k2] == v2
    ensures m == map[k1 := v1, k2 := v2]
  {
  }

  /** The product of five factors. */
  lemma ProductOfFive(fs: seq<real>)
    requires |fs| == 5
    ensures Product(fs) == Mul(fs[0], Mul(fs[1], Mul(fs[2], Mul(fs[3], Mul(fs[4], 1.0)))))
  {
    assert fs[4..][1..] == [];
    assert Product(fs[4..]) == Mul(fs[4], 1.0);
    assert fs[3..][1..] == fs[4..];
    assert Product(fs[3..]) == Mul(fs[3], Product(fs[4..]));
    assert fs[2..][1..] == fs[3..];
    assert Product(fs[2..]) == Mul(fs[2], Product(fs[3..]));
    assert fs[1..][1..] == fs[2..];
    assert Product(fs[1..]) == Mul(fs[1], Product(fs[2..]));
  }

  /** The score of a row over the corpus's tokens, in the order a-e. */
  lemma ScoreOverTokens(row: map<string, real>, item: seq<string>, applyInverse: bool)
    requires row.Keys == {"a", "b", "c", "d", "e"}
    ensures Elems(Tokens) <= row.Keys
    ensures Score(row, Tokens, item, applyInverse) ==
      Mul(Factor(row["a"], "a" in item, applyInverse), Mul(Factor(row["b"], "b" in item, applyInverse),
      Mul(Factor(row["c"], "c" in item, applyInverse), Mul(Factor(row["d"], "d" in item, applyInverse),
      Mul(Factor(row["e"], "e" in item, applyInverse), 1.0)))))
  {
    TokenSet();
    var fs := Factors(row, Tokens, item, applyInverse);
    assert fs == [Factor(row["a"], "a" in item, applyInverse), Factor(row["b"], "b" in item, applyInverse),
                  Factor(row["c"], "c" in item, applyInverse), Factor(row["d"], "d" in item, applyInverse),
                  Factor(row["e"], "e" in item, applyInverse)];
    ProductOfFive(fs);
  }

  /** Which of the corpus's tokens the test document holds. */
  lemma TestDocTokens()
    ensures "a" !in TestDoc.tokens && "b" in TestDoc.tokens && "c" !in TestDoc.tokens
    ensures "d" in TestDoc.tokens && "e" in TestDoc.tokens
  {
  }

  lemma BadScore(applyInverse: bool)
    ensures Elems(Tokens) <= BadRow.Keys
    ensures Score(BadRow, Tokens, TestDoc.tokens, applyInverse) == if applyInverse then 0.0 else 2.0 / 27.0
  {
    ScoreOverTokens(BadRow, TestDoc.tokens, applyInverse);
    TestDocTokens();
  }

  lemma GoodScore(applyInverse: bool)
    ensures Elems(Tokens) <= GoodRow.Keys
    ensures Score(GoodRow, Tokens, TestDoc.tokens, applyInverse) == if applyInverse then 8.0 / 81.0 else 4.0 / 27.0
  {
    ScoreOverTokens(GoodRow, TestDoc.tokens, applyInverse);
    TestDocTokens();
  }

  /** The scores test/test.js's classifiers give the test document: with
      inverse scoring, "bad" scores 0 (every bad item has "a", which the
      document lacks) and "good" scores 8/81; without it, 2/27 and 4/27. */
  lemma FixtureScores(cl: Classifier)
    requires Valid(cl) && cl.probabilities == map["bad" := BadRow, "good" := GoodRow]
    ensures ScoreOf(cl, "bad", TestDoc) == if cl.options.applyInverse then 0.0 else 2.0 / 27.0
    ensures ScoreOf(cl, "good", TestDoc) == if cl.options.applyInverse then 8.0 / 81.0 else 4.0 / 27.0
  {
    var inv := cl.options.applyInverse;
    TokenSet();
    assert Elems(cl.vocabulary) == Elems(Tokens) by {
      assert cl.probabilities["bad"].Keys == Elems(cl.vocabulary);
    }
    assert NoDup(Tokens);
    ScoreReorder(BadRow, cl.vocabulary, Tokens, TestDoc.tokens, inv);
    ScoreReorder(GoodRow, cl.vocabulary, Tokens, TestDoc.tokens, inv);
    BadScore(inv);
    GoodScore(inv);
  }

  /** A classifier trained on the two categories of the corpus knows them in
      one order or the other. */
  lemma TwoCategories(cl: Classifier)
    requires Valid(cl) && cl.probabilities.Keys == {"bad", "good"}
    ensures cl.categories == ["bad", "good"] || cl.categories == ["good", "bad"]
  {
    var cs := cl.categories;
    NoDupCardinality(cs);
    assert |cs| == 2;
    assert cs[0] in Elems(cs) && cs[1] in Elems(cs);
  }

  /** The sum of two scores, in either order. */
  lemma SumOfTwo(s: seq<CategoryScore>)
    requires |s| == 2
    ensures SumScores(s) == s[0].score + s[1].score
  {
    assert s[1..][1..] == [];
    assert SumScores(s[1..]) == s[1].score;
  }

  /** "good" ranks ahead of "bad" for the test document, with or without
      inverse scoring. */
  lemma FixtureRanking(cl: Classifier)
    requires Valid(cl) && cl.probabilities == map["bad" := BadRow, "good" := GoodRow]
    ensures Classify(cl, TestDoc).Ok?
    ensures Classify(cl, TestDoc).value.category == "good"
    ensures Classify(cl, TestDoc).value.secondCategory == "bad"
  {
    TwoCategories(cl);
    FixtureScores(cl);
  }

  /** The reported ratios in terms of the two scores. */
  lemma FixtureRatios(cl: Classifier)
    requires Valid(cl) && cl.probabilities == map["bad" := BadRow, "good" := GoodRow]
    ensures Classify(cl, TestDoc).Ok?
    ensures var good, bad := ScoreOf(cl, "good", TestDoc), ScoreOf(cl, "bad", TestDoc);
      && Classify(cl, TestDoc).value.probability == (if good + bad == 0.0 then None else Some(good / (good + bad)))
      && Classify(cl, TestDoc).value.timesMoreLikely == (if bad == 0.0 then None else Some(good / bad))
  {
    FixtureRanking(cl);
    TwoCategories(cl);
    SumOfTwo(Scores(cl, TestDoc));
  }

  /** What `classify` reports for the test document (test/test.js:30-33 and
      40-41): "good" ahead of "bad" either way; with inverse scoring the
      probability is 1 and the ratio to a zero runner-up is undefined;
      without it the probability is 2/3 and "good" is twice as likely. */
  lemma FixtureClassification(cl: Classifier)
    requires Valid(cl) && cl.probabilities == map["bad" := BadRow, "good" := GoodRow]
    ensures Classify(cl, TestDoc).Ok?
    ensures Classify(cl, TestDoc).value.category == "good"
    ensures Classify(cl, TestDoc).value.secondCategory == "bad"
    ensures cl.options.applyInverse ==>
      Classify(cl, TestDoc).value.probability == Some(1.0) && Classify(cl, TestDoc).value.timesMoreLikely == None
    ensures !cl.options.applyInverse ==>
      Classify(cl, TestDoc).value.probability == Some(2.0 / 3.0) &&
      Classify(cl, TestDoc).value.timesMoreLikely == Some(2.0)
  {
    FixtureRanking(cl);
    FixtureRatios(cl);
    FixtureScores(cl);
  }

  /** test/test.js:20-33: a classifier with inverse scoring, trained on the
      corpus, puts the test document in "good" with probability 1. */
  lemma InverseRun(ds: DataSets.DataSet)
    requires ShapedLikeCorpus(ds)
    ensures DataSets.Valid(ds)
    ensures var trained := Train(NewClassifier(RawOptions(Some(true), None, None)), ds);
      && trained.Ok?
      && trained.value.probabilities == map["bad" := BadRow, "good" := GoodRow]
      && Classify(trained.value, TestDoc).Ok?
      && Classify(trained.value, TestDoc).value.category == "good"
      && Classify(trained.value, TestDoc).value.probability == Some(1.0)
      && Classify(trained.value, TestDoc).value.timesMoreLikely == None
  {
    var cl := NewClassifier(RawOptions(Some(true), None, None));
    ShapedVocabulary(ds);
    TrainedTable(cl, ds);
    FixtureClassification(Train(cl, ds).value);
  }

  /** test/test.js:35-41: a classifier with default options, trained on the
      corpus, puts the test document in "good" with probability 2/3, twice
      as likely as "bad". */
  lemma PlainRun(ds: DataSets.DataSet)
    requires ShapedLikeCorpus(ds)
    ensures DataSets.Valid(ds)
    ensures var trained := Train(NewClassifier(NoOptions), ds);
      && trained.Ok?
      && trained.value.probabilities == map["bad" := BadRow, "good" := GoodRow]
      && Classify(trained.value, TestDoc).Ok?
      && Classify(trained.value, TestDoc).value.category == "good"
      && Classify(trained.value, TestDoc).value.probability == Some(2.0 / 3.0)
      && Classify(trained.value, TestDoc).value.timesMoreLikely == Some(2.0)
  {
    var cl := NewClassifier(NoOptions);
    ShapedVocabulary(ds);
    TrainedTable(cl, ds);
    FixtureClassification(Train(cl, ds).value);
  }

  /** The corpus holds six items. */
  lemma CorpusSize(ds: DataSets.DataSet)
    requires ShapedLikeCorpus(ds)
    ensures DataSets.TotalItems(ds) == 6
  {
    assert DataSets.CountItemsUnder(ds, ["good"]) == 3 by {
      assert ["good"][1..] == [];
      assert DataSets.ItemsOf(ds, "good") == GoodItems;
    }
    assert ds.labels[1..] == ["good"];
    assert DataSets.ItemsOf(ds, "bad") == BadItems;
  }

  /** Validating against the corpus itself: as written it fails on the first
      item, while with the classifier as receiver every one of the six items
      is counted. */
  lemma ValidateOnCorpus(cl: Classifier, ds: DataSets.DataSet)
    requires Valid(cl) && ShapedLikeCorpus(ds)
    ensures Validation.ValidateAsWritten(cl, ds) == Err(Validation.ClassifyIsNotAFunction)
    ensures |cl.categories| >= 2 ==>
      Validation.Validate(cl, ds).Ok? && Validation.Validate(cl, ds).value.total == 6
  {
    CorpusSize(ds);
  }
}

=== FILE: model.dfy ===
/** The classifier's configuration and state (`Classifier`, lib/classifier.js:4-12). */
module Model {
  import opened Wrappers
  import opened Collections

  /** The options object as a caller may pass it; an omitted field is `None`. */
  datatype RawOptions = RawOptions(
    applyInverse: Option<bool>,
    probabilityThreshold: Option<real>,
    defaultCategory: Option<string>)

  /** `new Classifier()` with no options object at all behaves as an empty one. */
  const NoOptions := RawOptions(None, None, None)

  /** The options after defaulting. */
  datatype Options = Options(applyInverse: bool, probabilityThreshold: real, defaultCategory: Option<string>)

  /** Per token, per category: how many times the token occurred. */
  type Counts = map<string, map<string, nat>>

  /** Per category, per token: the trained probability. */
  type Table = map<string, map<string, real>>

  /** The classifier object. `vocabulary` is the key order of `tokens` and
      `categories` the key order of `probabilities`: the order in which the
      source's `for ... in` loops visit them. */
  datatype Classifier = Classifier(
    options: Options,
    vocabulary: seq<string>,
    tokens: Counts,
    categoryCounts: map<string, nat>,
    categories: seq<string>,
    probabilities: Table)

  /** The defaulting of lines 5-8, with JavaScript's `||`: a falsy value (false,
      0, the empty string) counts as absent. So a threshold of 0 silently becomes
      0.5 and can never be configured, and an empty default category becomes
      none. The tables start empty. */
  function NewClassifier(raw: RawOptions): (cl: Classifier)
    ensures cl.options.applyInverse <==> raw.applyInverse == Some(true)
    ensures cl.options.probabilityThreshold != 0.0
    ensures raw.probabilityThreshold.Some? && raw.probabilityThreshold.value != 0.0 ==>
      cl.options.probabilityThreshold == raw.probabilityThreshold.value
    ensures raw.probabilityThreshold.None? || raw.probabilityThreshold == Some(0.0) ==>
      cl.options.probabilityThreshold == 0.5
    ensures cl.options.defaultCategory != Some("")
    ensures raw.defaultCategory.Some? && raw.defaultCategory.value != "" ==>
      cl.options.defaultCategory == raw.defaultCategory
    ensures raw.defaultCategory.None? || raw.defaultCategory == Some("") ==>
      cl.options.defaultCategory.None?
    ensures Untrained(cl) && Valid(cl)
  {
    var threshold :=
      if raw.probabilityThreshold.Some? && raw.probabilityThreshold.value != 0.0
      then raw.probabilityThreshold.value else 0.5;
    var default :=
      if raw.defaultCategory.Some? && raw.defaultCategory.value != ""
      then raw.defaultCategory else None;
    Classifier(Options(raw.applyInverse == Some(true), threshold, default), [], map[], map[], [], map[])
  }

  /** A freshly constructed classifier: every table is empty. */
  predicate Untrained(cl: Classifier)
  {
    cl.vocabulary == [] && cl.tokens == map[] && cl.categoryCounts == map[]
    && cl.categories == [] && cl.probabilities == map[]
  }

  /** The shape training leaves behind: the key orders list each key once,
      and every category's row has an entry for every vocabulary token. */
  predicate Valid(cl: Classifier)
  {
    && NoDup(cl.vocabulary)
    && NoDup(cl.categories)
    && Elems(cl.vocabulary) == cl.tokens.Keys
    && Elems(cl.categories) == cl.probabilities.Keys
    && forall c :: c in cl.probabilities ==> cl.probabilities[c].Keys == Elems(cl.vocabulary)
  }

  /** Every trained probability lies in [0, 1]. */
  predicate UnitTable(cl: Classifier)
  {
    forall c, t :: c in cl.probabilities && t in cl.probabilities[c] ==>
      0.0 <= cl.probabilities[c][t] <= 1.0
  }
}

=== FILE: scoring.dfy ===
/** `Classifier.classify` (lib/classifier.js:120-182): score every trained
    category, rank the categories by score and report the top two. */
module Scoring {
  import opened Wrappers
  import opened Collections
  import opened Documents
  import opened Model

  /** One token's effect on a category's score (lines 135-139): p when the
      item has the token, 1 - p when it does not and inverse scoring is on,
      and no effect otherwise. */
  function Factor(p: real, present: bool, applyInverse: bool): (r: real)
    ensures present ==> r == p
    ensures !present && applyInverse ==> r + p == 1.0
    ensures !present && !applyInverse ==> r == 1.0
    ensures 0.0 <= p <= 1.0 ==> 0.0 <= r <= 1.0
  {
    if present then p else if applyInverse then 1.0 - p else 1.0
  }

  /** Real multiplication under a name, so that equal operands give equal
      products by congruence alone in the proofs about `Product`. */
  function Mul(x: real, y: real): real
  {
    x * y
  }

  /** The product of a sequence of reals (1 for the empty sequence). */
  function Product(fs: seq<real>): real
  {
    if fs == [] then 1.0 else Mul(fs[0], Product(fs[1..]))
  }

  /** The factor of every token of `order`, in that order. */
  function Factors(row: map<string, real>, order: seq<string>, item: seq<string>, applyInverse: bool): seq<real>
    requires Elems(order) <= row.Keys
  {
    seq(|order|, i requires 0 <= i < |order| => Factor(row[order[i]], order[i] in item, applyInverse))
  }

  /** The score of one probability row against an item's tokens (lines
      128-141): starting from 1, the score is multiplied by the factor of
      every token of the row, visited in `order`. */
  function Score(row: map<string, real>, order: seq<string>, item: seq<string>, applyInverse: bool): real
    requires Elems(order) <= row.Keys
  {
    Product(Factors(row, order, item, applyInverse))
  }

  /** Multiplication is associative. */
  lemma MulAssoc(x: real, y: real, z: real)
    ensures Mul(x, Mul(y, z)) == Mul(Mul(x, y), z)
  {
  }

  /** Multiplying in one more factor at the end of a product. */
  lemma {:induction false} ProductSnoc(fs: seq<real>, x: real)
    ensures Product(fs + [x]) == Mul(Product(fs), x)
    decreases |fs|
  {
    if fs == [] {
      assert [] + [x] == [x];
      assert Product([x]) == Mul(x, Product([]));
    } else {
      assert (fs + [x])[1..] == fs[1..] + [x];
      ProductSnoc(fs[1..], x);
      MulAssoc(fs[0], Product(fs[1..]), x);
    }
  }

  /** The loop of lines 128-141 for one category: the running score starts at
      1 and is multiplied, token by token in `order`, by the token's
      probability when the item holds it, or by its complement when it does
      not and inverse scoring is on. It ends at the product `Score`. */
  method ScoreLoop(row: map<string, real>, order: seq<string>, item: seq<string>, applyInverse: bool)
    returns (score: real)
    requires Elems(order) <= row.Keys
    ensures score == Score(row, order, item, applyInverse)
  {
    ghost var fs := Factors(row, order, item, applyInverse);
    score := 1.0;
    var i := 0;
    while i < |order|
      invariant 0 <= i <= |order|
      invariant score == Product(fs[..i])
    {
      var t := order[i];
      assert t in Elems(order);
      if t in item {
        score := score * row[t];
      } else if applyInverse {
        score := score * (1.0 - row[t]);
      }
      assert fs[..i + 1] == fs[..i] + [fs[i]];
      ProductSnoc(fs[..i], fs[i]);
      i := i + 1;
    }
    assert fs[..|order|] == fs;
  }

  /** Multiplication by two factors in either order. */
  lemma Swap(x: real, y: real, z: real)
    ensures Mul(x, Mul(y, z)) == Mul(y, Mul(x, z))
  {
  }

  /** Taking the factor at position i out of a product divides it out. */
  lemma {:induction false} ProductRemoveAt(b: seq<real>, i: nat)
    requires i < |b|
    ensures Product(b) == Mul(b[i], Product(b[..i] + b[i + 1..]))
    decreases i
  {
    if i == 0 {
      assert b[..0] + b[1..] == b[1..];
    } else {
      var t := b[1..];
      var rest := b[..i] + b[i + 1..];
      var rest' := t[..i - 1] + t[i..];
      assert rest[1..] == rest' && rest[0] == b[0] && t[i - 1] == b[i];
      ProductRemoveAt(t, i - 1);
      Swap(b[0], b[i], Product(rest'));
    }
  }

  /** Rearranging the factors does not change the product. */
  lemma {:induction false} ProductPermutation(a: seq<real>, b: seq<real>)
    requires multiset(a) == multiset(b)
    ensures Product(a) == Product(b)
    decreases |a|
  {
    if a == [] {
      assert |b| == |multiset(b)| == 0;
    } else {
      assert a[0] in multiset(b);
      var i :| 0 <= i < |b| && b[i] == a[0];
      PermutationRemove(a, b, i);
      ProductPermutation(a[1..], b[..i] + b[i + 1..]);
      MatchedProducts(a, b, i);
    }
  }

  /** Matching the first factor of `a` with factor i of `b`: once the
      remaining factors have the same product, so do all of them. */
  lemma MatchedProducts(a: seq<real>, b: seq<real>, i: nat)
    requires a != [] && i < |b| && b[i] == a[0]
    requires Product(a[1..]) == Product(b[..i] + b[i + 1..])
    ensures Product(a) == Product(b)
  {
    ProductRemoveAt(b, i);
  }

  /** Factors in [0, 1] multiply to a value in [0, 1]. */
  lemma {:induction false} ProductInUnitRange(fs: seq<real>)
    requires forall i :: 0 <= i < |fs| ==> 0.0 <= fs[i] <= 1.0
    ensures 0.0 <= Product(fs) <= 1.0
    decreases |fs|
  {
    if fs != [] {
      assert forall k :: 0 <= k < |fs[1..]| ==> fs[1..][k] == fs[k + 1];
      ProductInUnitRange(fs[1..]);
      UnitProduct(fs[0], Product(fs[1..]));
    }
  }

  lemma UnitProduct(a: real, b: real)
    requires 0.0 <= a <= 1.0 && 0.0 <= b <= 1.0
    ensures 0.0 <= Mul(a, b) <= 1.0
  {
    assert 0.0 * b <= a * b <= 1.0 * b;
  }

  /** A zero factor zeroes the product. */
  lemma {:induction false} ProductZero(fs: seq<real>, i: nat)
    requires i < |fs| && fs[i] == 0.0
    ensures Product(fs) == 0.0
    decreases |fs|
  {
    if i > 0 {
      ProductZero(fs[1..], i - 1);
    }
  }

  /** Raising non-negative factors pointwise never lowers the product. */
  lemma {:induction false} ProductMonotone(a: seq<real>, b: seq<real>)
    requires |a| == |b| && forall i :: 0 <= i < |a| ==> 0.0 <= a[i] <= b[i]
    ensures 0.0 <= Product(a) <= Product(b)
    decreases |a|
  {
    if a != [] {
      assert forall k :: 0 <= k < |a[1..]| ==> a[1..][k] == a[k + 1] && b[1..][k] == b[k + 1];
      ProductMonotone(a[1..], b[1..]);
      ProductMonotoneStep(a[0], b[0], Product(a[1..]), Product(b[1..]));
    }
  }

  lemma ProductMonotoneStep(a: real, b: real, x: real, y: real)
    requires 0.0 <= a <= b && 0.0 <= x <= y
    ensures 0.0 <= Mul(a, x) <= Mul(b, y)
  {
    assert a * x <= b * x;
    assert b * x <= b * y;
  }

  /** With every entry of the row in [0, 1], the score lies in [0, 1]. */
  lemma ScoreInUnitRange(row: map<string, real>, order: seq<string>, item: seq<string>, applyInverse: bool)
    requires Elems(order) <= row.Keys
    requires forall t :: t in row ==> 0.0 <= row[t] <= 1.0
    ensures 0.0 <= Score(row, order, item, applyInverse) <= 1.0
  {
    var fs := Factors(row, order, item, applyInverse);
    forall i | 0 <= i < |fs| ensures 0.0 <= fs[i] <= 1.0 {
      assert order[i] in Elems(order);
    }
    ProductInUnitRange(fs);
  }

  /** Tokens of the item that are not in the row have no effect: two items
      that agree on the row's tokens get the same score. */
  lemma ScoreIgnoresForeignTokens(
    row: map<string, real>, order: seq<string>, item1: seq<string>, item2: seq<string>, applyInverse: bool)
    requires Elems(order) <= row.Keys
    requires forall t :: t in order ==> (t in item1 <==> t in item2)
    ensures Score(row, order, item1, applyInverse) == Score(row, order, item2, applyInverse)
  {
    assert Factors(row, order, item1, applyInverse) == Factors(row, order, item2, applyInverse);
  }

  /** A single factor of 0 (a present token with probability 0, or, with
      inverse scoring, an absent token with probability 1) zeroes the score. */
  lemma ScoreZeroFactor(
    row: map<string, real>, order: seq<string>, item: seq<string>, applyInverse: bool, i: nat)
    requires Elems(order) <= row.Keys
    requires i < |order| && Factor(row[order[i]], order[i] in item, applyInverse) == 0.0
    ensures Score(row, order, item, applyInverse) == 0.0
  {
    ProductZero(Factors(row, order, item, applyInverse), i);
  }

  /** With every entry in [0, 1], turning inverse scoring on never raises a
      score: absent tokens can only multiply it by 1 - p <= 1. */
  lemma InverseNeverRaisesScore(row: map<string, real>, order: seq<string>, item: seq<string>)
    requires Elems(order) <= row.Keys
    requires forall t :: t in row ==> 0.0 <= row[t] <= 1.0
    ensures Score(row, order, item, true) <= Score(row, order, item, false)
  {
    var a := Factors(row, order, item, true);
    var b := Factors(row, order, item, false);
    forall i | 0 <= i < |a| ensures 0.0 <= a[i] <= b[i] {
      assert order[i] in Elems(order);
    }
    ProductMonotone(a, b);
  }

  /** Taking one token out of the visiting order takes its factor out of
      the factors. */
  lemma FactorsRemoveAt(row: map<string, real>, o: seq<string>, i: nat, item: seq<string>, applyInverse: bool)
    requires Elems(o) <= row.Keys && i < |o|
    ensures Elems(o[..i] + o[i + 1..]) <= row.Keys
    ensures multiset(Factors(row, o, item, applyInverse)) ==
            multiset{Factor(row[o[i]], o[i] in item, applyInverse)} +
            multiset(Factors(row, o[..i] + o[i + 1..], item, applyInverse))
  {
    var f := Factors(row, o, item, applyInverse);
    var rest := o[..i] + o[i + 1..];
    ElemsRemoveAt(o, i);
    assert Factors(row, rest, item, applyInverse) == f[..i] + f[i + 1..] by {
      assert forall k :: 0 <= k < |rest| ==> rest[k] == o[if k < i then k else k + 1];
    }
    MultisetRemoveAt(f, i);
  }

  /** Matching the first token of one visiting order with the same token
      in another: once the remaining factors agree, all of them do. */
  lemma MatchFirstFactor(
    row: map<string, real>, o1: seq<string>, o2: seq<string>, i: nat, item: seq<string>, applyInverse: bool)
    requires Elems(o1) <= row.Keys && Elems(o2) <= row.Keys && o1 != [] && i < |o2| && o2[i] == o1[0]
    ensures Elems(o1[1..]) <= row.Keys && Elems(o2[..i] + o2[i + 1..]) <= row.Keys
    ensures multiset(Factors(row, o1[1..], item, applyInverse)) ==
            multiset(Factors(row, o2[..i] + o2[i + 1..], item, applyInverse)) ==>
            multiset(Factors(row, o1, item, applyInverse)) == multiset(Factors(row, o2, item, applyInverse))
  {
    var x := Factor(row[o1[0]], o1[0] in item, applyInverse);
    assert multiset(Factors(row, o2, item, applyInverse)) ==
           multiset{x} + multiset(Factors(row, o2[..i] + o2[i + 1..], item, applyInverse)) by {
      FactorsRemoveAt(row, o2, i, item, applyInverse);
    }
    assert multiset(Factors(row, o1, item, applyInverse)) ==
           multiset{x} + multiset(Factors(row, o1[1..], item, applyInverse)) by {
      FactorsRemoveAt(row, o1, 0, item, applyInverse);
      assert o1[..0] + o1[1..] == o1[1..];
    }
  }

  /** Two visiting orders of the same tokens yield the same factors,
      rearranged. */
  lemma {:induction false} FactorsPermutation(
    row: map<string, real>, o1: seq<string>, o2: seq<string>, item: seq<string>, applyInverse: bool)
    requires NoDup(o1) && NoDup(o2) && Elems(o1) == Elems(o2) && Elems(o1) <= row.Keys
    ensures multiset(Factors(row, o1, item, applyInverse)) == multiset(Factors(row, o2, item, applyInverse))
    decreases |o1|
  {
    if o1 == [] {
      ElemsEmpty(o2);
    } else {
      assert o1[0] in Elems(o2);
      var i :| 0 <= i < |o2| && o2[i] == o1[0];
      NoDupTail(o1);
      NoDupRemoveAt(o2, i);
      MatchFirstFactor(row, o1, o2, i, item, applyInverse);
      FactorsPermutation(row, o1[1..], o2[..i] + o2[i + 1..], item, applyInverse);
    }
  }

  /** The order in which a row's tokens are visited (the key order of a
      JavaScript object) does not change the score. */
  lemma ScoreReorder(
    row: map<string, real>, o1: seq<string>, o2: seq<string>, item: seq<string>, applyInverse: bool)
    requires NoDup(o1) && NoDup(o2) && Elems(o1) == Elems(o2) && Elems(o1) <= row.Keys
    ensures Score(row, o1, item, applyInverse) == Score(row, o2, item, applyInverse)
  {
    FactorsPermutation(row, o1, o2, item, applyInverse);
    ProductPermutation(Factors(row, o1, item, applyInverse), Factors(row, o2, item, applyInverse));
  }

  /** A category together with its score: an entry of the `probabilities`
      list of the result. */
  datatype CategoryScore = CategoryScore(category: string, score: real)

  /** Non-increasing by score, the order `compareCategories` asks for (lines 146-154). */
  predicate SortedDesc(s: seq<CategoryScore>)
  {
    forall i, j :: 0 <= i < j < |s| ==> s[i].score >= s[j].score
  }

  /** Insert an entry into a ranked list, before the first entry it is not
      below. */
  function Insert(x: CategoryScore, s: seq<CategoryScore>): (r: seq<CategoryScore>)
    requires SortedDesc(s)
    ensures SortedDesc(r)
    ensures multiset(r) == multiset(s) + multiset{x}
    ensures |r| == |s| + 1
    decreases |s|
  {
    if s == [] || x.score >= s[0].score then [x] + s
    else
      var rest := Insert(x, s[1..]);
      InsertBelowHead(x, s, rest);
      [s[0]] + rest
  }

  /** Keeping the head of a ranked list in front of the insertion into its
      tail (the case where the new entry scores below the head). */
  lemma InsertBelowHead(x: CategoryScore, s: seq<CategoryScore>, rest: seq<CategoryScore>)
    requires SortedDesc(s) && s != [] && x.score < s[0].score
    requires SortedDesc(rest) && multiset(rest) == multiset(s[1..]) + multiset{x}
    ensures SortedDesc([s[0]] + rest)
    ensures multiset([s[0]] + rest) == multiset(s) + multiset{x}
  {
    assert s == [s[0]] + s[1..];
    forall k | 0 <= k < |rest| ensures rest[k].score <= s[0].score {
      assert rest[k] in multiset(s[1..]) + multiset{x};
      if rest[k] != x {
        assert rest[k] in s[1..];
      }
    }
  }

  /** The ranking of line 168: a permutation of the scores, non-increasing by
      score. Ties keep their original order (as a stable sort does), but no
      property below depends on that. */
  function Rank(s: seq<CategoryScore>): (r: seq<CategoryScore>)
    ensures SortedDesc(r)
    ensures multiset(r) == multiset(s)
    ensures |r| == |s|
    decreases |s|
  {
    if s == [] then []
    else
      assert s == [s[0]] + s[1..];
      Insert(s[0], Rank(s[1..]))
  }

  /** The sum of the scores (line 165). */
  function SumScores(s: seq<CategoryScore>): real
  {
    if s == [] then 0.0 else s[0].score + SumScores(s[1..])
  }

  /** The score of a trained category for an item. */
  function ScoreOf(cl: Classifier, c: string, doc: Document): real
    requires Valid(cl) && c in cl.probabilities
  {
    Score(cl.probabilities[c], cl.vocabulary, doc.tokens, cl.options.applyInverse)
  }

  /** The (category, score) pairs in the order the categories were trained
      (lines 126-143 and 159-167). */
  function Scores(cl: Classifier, doc: Document): (r: seq<CategoryScore>)
    requires Valid(cl)
    ensures |r| == |cl.categories|
    ensures forall i :: 0 <= i < |r| ==> r[i] == CategoryScore(cl.categories[i], ScoreOf(cl, cl.categories[i], doc))
  {
    seq(|cl.categories|, i requires 0 <= i < |cl.categories| =>
      CategoryScore(cl.categories[i], ScoreOf(cl, cl.categories[i], doc)))
  }

  /** What `classify` returns. `probability` is `None` where the source
      computes 0/0 (every score 0); `timesMoreLikely` is `None` where it divides
      by a runner-up score of 0. */
  datatype Classification = Classification(
    category: string,
    probability: Option<real>,
    timesMoreLikely: Option<real>,
    secondCategory: string,
    probabilities: seq<CategoryScore>)

  /** Fewer than two categories leave no runner-up (line 172 reads a property
      of `undefined`). */
  datatype ClassifyError = InsufficientCategories(count: nat)

  /** The scores list has one entry per category, so no entry twice. */
  lemma ScoresNoDup(cl: Classifier, doc: Document)
    requires Valid(cl)
    ensures NoDup(Scores(cl, doc))
  {
    var s := Scores(cl, doc);
    forall a, b | 0 <= a < b < |s| ensures s[a] != s[b] {
      assert s[a].category == cl.categories[a] && s[b].category == cl.categories[b];
    }
  }

  /** An entry of the scores list names a trained category and carries its score. */
  lemma ScoresEntry(cl: Classifier, doc: Document, x: CategoryScore)
    requires Valid(cl) && x in Scores(cl, doc)
    ensures x.category in cl.probabilities && x.score == ScoreOf(cl, x.category, doc)
  {
    var s := Scores(cl, doc);
    var i :| 0 <= i < |s| && s[i] == x;
  }

  /** Every trained category has its entry in the scores list. */
  lemma ScoresHasCategory(cl: Classifier, doc: Document, c: string)
    requires Valid(cl) && c in cl.probabilities
    ensures CategoryScore(c, ScoreOf(cl, c, doc)) in Scores(cl, doc)
  {
    assert c in Elems(cl.categories);
    var i :| 0 <= i < |cl.categories| && cl.categories[i] == c;
    assert Scores(cl, doc)[i] == CategoryScore(c, ScoreOf(cl, c, doc));
  }

  /** Facts about a ranking of the scores: its head has a maximal score, its
      second entry a maximal score among the other categories, and the two are
      different categories. */
  lemma RankingFacts(cl: Classifier, doc: Document, ranked: seq<CategoryScore>)
    requires Valid(cl) && |cl.categories| >= 2
    requires SortedDesc(ranked) && multiset(ranked) == multiset(Scores(cl, doc))
    ensures |ranked| >= 2
    ensures forall k :: 0 <= k < |ranked| ==>
              ranked[k].category in cl.probabilities && ranked[k].score == ScoreOf(cl, ranked[k].category, doc)
    ensures ranked[0].category != ranked[1].category
    ensures forall c :: c in cl.probabilities ==> ScoreOf(cl, c, doc) <= ranked[0].score
    ensures forall c :: c in cl.probabilities && c != ranked[0].category ==> ScoreOf(cl, c, doc) <= ranked[1].score
  {
    var s := Scores(cl, doc);
    assert |ranked| == |s| by {
      calc { |ranked|; |multiset(ranked)|; |multiset(s)|; |s|; }
    }
    forall k | 0 <= k < |ranked|
      ensures ranked[k].category in cl.probabilities && ranked[k].score == ScoreOf(cl, ranked[k].category, doc)
    {
      assert ranked[k] in multiset(s);
      ScoresEntry(cl, doc, ranked[k]);
    }
    ScoresNoDup(cl, doc);
    PermutationNoDup(s, ranked);
    assert ranked[0] != ranked[1];
    forall c | c in cl.probabilities ensures ScoreOf(cl, c, doc) <= ranked[0].score {
      ScoresHasCategory(cl, doc, c);
      assert CategoryScore(c, ScoreOf(cl, c, doc)) in multiset(ranked);
    }
    forall c | c in cl.probabilities && c != ranked[0].category
      ensures ScoreOf(cl, c, doc) <= ranked[1].score
    {
      ScoresHasCategory(cl, doc, c);
      var x := CategoryScore(c, ScoreOf(cl, c, doc));
      assert x in multiset(ranked);
      var k :| 0 <= k < |ranked| && ranked[k] == x;
      assert k != 0;
    }
  }

  /** `classify`. It fails exactly when fewer than two categories are
      trained. Otherwise `probabilities` is a permutation of the
      (category, score) pairs ranked non-increasing by score; `category` is its
      head and has a maximal score; `secondCategory` is the next entry, a
      different category, whose score is maximal among the rest; and the two
      ratios divide the top score by the sum of all scores and by the
      runner-up's score, each absent when its divisor is 0. */
  function Classify(cl: Classifier, doc: Document): (r: Result<Classification, ClassifyError>)
    requires Valid(cl)
    ensures r.Err? <==> |cl.categories| < 2
    ensures r.Err? ==> r.error.count == |cl.categories|
    ensures r.Ok? ==> SortedDesc(r.value.probabilities)
    ensures r.Ok? ==> multiset(r.value.probabilities) == multiset(Scores(cl, doc))
    ensures r.Ok? ==>
      && |r.value.probabilities| >= 2
      && r.value.category == r.value.probabilities[0].category
      && r.value.secondCategory == r.value.probabilities[1].category
    ensures r.Ok? ==>
      && r.value.category in cl.probabilities
      && r.value.secondCategory in cl.probabilities
      && r.value.category != r.value.secondCategory
    ensures r.Ok? ==> forall c :: c in cl.probabilities ==>
              ScoreOf(cl, c, doc) <= ScoreOf(cl, r.value.category, doc)
    ensures r.Ok? ==> forall c :: c in cl.probabilities && c != r.value.category ==>
              ScoreOf(cl, c, doc) <= ScoreOf(cl, r.value.secondCategory, doc)
    ensures r.Ok? ==>
      var top := ScoreOf(cl, r.value.category, doc);
      var sum := SumScores(Scores(cl, doc));
      r.value.probability == (if sum == 0.0 then None else Some(top / sum))
    ensures r.Ok? ==>
      var top := ScoreOf(cl, r.value.category, doc);
      var second := ScoreOf(cl, r.value.secondCategory, doc);
      r.value.timesMoreLikely == (if second == 0.0 then None else Some(top / second))
  {
    if |cl.categories| < 2 then Err(InsufficientCategories(|cl.categories|))
    else
      var scores := Scores(cl, doc);
      var ranked := Rank(scores);
      var sum := SumScores(scores);
      RankingFacts(cl, doc, ranked);
      var first := ranked[0];
      var second := ranked[1];
      Ok(Classification(
        first.category,
        if sum == 0.0 then None else Some(first.score / sum),
        if second.score == 0.0 then None else Some(first.score / second.score),
        second.category,
        ranked))
  }

  /** `n` copies of `x` added up: `n * x` without a multiplication, so that
      the bounds on a sum stay linear. */
  function Times(n: nat, x: real): real
  {
    if n == 0 then 0.0 else x + Times(n - 1, x)
  }

  lemma {:induction false} TimesIsProduct(n: nat, x: real)
    ensures Times(n, x) == n as real * x
  {
    if n > 0 {
      TimesIsProduct(n - 1, x);
    }
  }

  /** A list of scores in [0, m] sums to at most |s| times m, and to at least
      each of its members. */
  lemma {:induction false} SumBounds(s: seq<CategoryScore>, m: real)
    requires forall k :: 0 <= k < |s| ==> 0.0 <= s[k].score <= m
    ensures 0.0 <= SumScores(s) <= Times(|s|, m)
    ensures forall k :: 0 <= k < |s| ==> s[k].score <= SumScores(s)
    decreases |s|
  {
    if s != [] {
      assert forall k :: 0 <= k < |s[1..]| ==> s[1..][k] == s[k + 1];
      SumBounds(s[1..], m);
    }
  }

  lemma NormalisedBounds(top: real, sum: real, n: nat)
    requires n >= 1 && 0.0 < sum && 0.0 <= top <= sum && sum <= n as real * top
    ensures 1.0 / n as real <= top / sum <= 1.0
  {
    var q := top / sum;
    assert q * sum == top;
    assert q <= 1.0;
    assert n as real * q * sum == n as real * top;
    assert n as real * q >= 1.0;
  }

  /** With every trained probability in [0, 1], every score lies in [0, 1]. */
  lemma ScoresInUnitRange(cl: Classifier, doc: Document)
    requires Valid(cl) && UnitTable(cl)
    ensures forall c :: c in cl.probabilities ==> 0.0 <= ScoreOf(cl, c, doc) <= 1.0
  {
    forall c | c in cl.probabilities ensures 0.0 <= ScoreOf(cl, c, doc) <= 1.0 {
      var row := cl.probabilities[c];
      assert forall t :: t in row ==> 0.0 <= row[t] <= 1.0;
      ScoreInUnitRange(row, cl.vocabulary, doc.tokens, cl.options.applyInverse);
    }
  }

  /** The ratio facts for a top score `top` among `n` non-negative scores
      summing to `sum`, and a runner-up score `second`. */
  lemma Ratios(top: real, sum: real, second: real, n: nat)
    requires 0.0 <= top <= sum <= Times(n, top) && 0.0 <= second <= top
    ensures sum == 0.0 <==> top == 0.0
    ensures sum != 0.0 ==> 1.0 / n as real <= top / sum <= 1.0
    ensures second != 0.0 ==> top / second >= 1.0
  {
    TimesIsProduct(n, top);
    ZeroSum(top, sum, n);
    if sum != 0.0 {
      NormalisedBounds(top, sum, n);
    }
    if second != 0.0 {
      RatioAtLeastOne(top, second);
    }
  }

  lemma ZeroSum(top: real, sum: real, n: nat)
    requires 0.0 <= top <= sum <= n as real * top
    ensures sum == 0.0 <==> top == 0.0
  {
    if top == 0.0 {
      assert n as real * top == 0.0;
    }
  }

  lemma RatioAtLeastOne(a: real, b: real)
    requires 0.0 < b <= a
    ensures a / b >= 1.0
  {
  }

  /** With every trained probability in [0, 1]: `probability` is absent
      exactly when every category scores 0, and otherwise lies in [1/n, 1] for
      n categories; `timesMoreLikely`, when present, is at least 1. */
  lemma ClassifyRatios(cl: Classifier, doc: Document)
    requires Valid(cl) && UnitTable(cl) && |cl.categories| >= 2
    ensures var r := Classify(cl, doc).value;
      r.probability.None? <==> forall c :: c in cl.probabilities ==> ScoreOf(cl, c, doc) == 0.0
    ensures var r := Classify(cl, doc).value;
      r.probability.Some? ==> 1.0 / |cl.categories| as real <= r.probability.value <= 1.0
    ensures var r := Classify(cl, doc).value;
      r.timesMoreLikely.Some? ==> r.timesMoreLikely.value >= 1.0
  {
    var r := Classify(cl, doc).value;
    var s := Scores(cl, doc);
    var top := ScoreOf(cl, r.category, doc);
    ScoresInUnitRange(cl, doc);
    ScoresHasCategory(cl, doc, r.category);
    var i :| 0 <= i < |s| && s[i] == CategoryScore(r.category, top);
    assert forall k :: 0 <= k < |s| ==> 0.0 <= s[k].score <= top by {
      forall k | 0 <= k < |s| ensures 0.0 <= s[k].score <= top {
        assert cl.categories[k] in Elems(cl.categories);
      }
    }
    assert top <= SumScores(s) <= Times(|s|, top) by {
      SumBounds(s, top);
    }
    Ratios(top, SumScores(s), ScoreOf(cl, r.secondCategory, doc), |s|);
  }
}

=== FILE: training.dfy ===
/** `Classifier.train` (lib/classifier.js:16-67), on a freshly constructed
    classifier: a counting pass over the training set, then a pass that turns
    the counts into the probability table. */
module Training {
  import opened Wrappers
  import opened Collections
  import opened Documents
  import DataSets
  import opened Model

  /** A category with no items would divide 0 by 0 (lib/classifier.js:59). */
  datatype TrainError = EmptyCategory(category: string)

  /** `tokens[t][c] || 0` (lib/classifier.js:57): a missing count reads as 0. */
  function Lookup(tokens: Counts, t: string, c: string): nat
  {
    if t in tokens && c in tokens[t] then tokens[t][c] else 0
  }

  /** How many times `t` occurs in the token lists of `docs`, duplicates included. */
  function Occurrences(t: string, docs: seq<Document>): nat
  {
    if docs == [] then 0 else multiset(docs[0].tokens)[t] + Occurrences(t, docs[1..])
  }

  /** How many of `docs` contain `t` at least once. */
  function Containing(t: string, docs: seq<Document>): nat
  {
    if docs == [] then 0 else (if t in docs[0].tokens then 1 else 0) + Containing(t, docs[1..])
  }

  /** Every token of `docs`. */
  function TokensOf(docs: seq<Document>): set<string>
  {
    if docs == [] then {} else Elems(docs[0].tokens) + TokensOf(docs[1..])
  }

  /** Every token of the items filed under `categories`. */
  function TokensUnder(ds: DataSets.DataSet, categories: seq<string>): set<string>
  {
    if categories == [] then {}
    else TokensOf(DataSets.ItemsOf(ds, categories[0])) + TokensUnder(ds, categories[1..])
  }

  /** The global vocabulary of a training set. */
  function Vocabulary(ds: DataSets.DataSet): set<string>
  {
    TokensUnder(ds, ds.labels)
  }

  /** The counting pass's state: `this.tokens` with its key order, and
      `this.categoryCounts`. */
  datatype Counting = Counting(vocabulary: seq<string>, tokens: Counts, categoryCounts: map<string, nat>)

  predicate Consistent(s: Counting)
  {
    NoDup(s.vocabulary) && Elems(s.vocabulary) == s.tokens.Keys
  }

  /** One step of lines 31-38: create the token's row if missing, then
      raise its counter for the category by one. A new token joins the end of
      the key order. */
  function Bump(s: Counting, t: string, c: string): (r: Counting)
    requires Consistent(s)
    ensures Consistent(r)
    ensures r.tokens.Keys == s.tokens.Keys + {t}
    ensures forall t', c' :: Lookup(r.tokens, t', c') ==
              Lookup(s.tokens, t', c') + (if t' == t && c' == c then 1 else 0)
    ensures r.categoryCounts == s.categoryCounts
  {
    var row := if t in s.tokens then s.tokens[t] else map[];
    var order := if t in s.tokens then s.vocabulary else s.vocabulary + [t];
    Counting(order, s.tokens[t := row[c := Lookup(s.tokens, t, c) + 1]], s.categoryCounts)
  }

  /** The loop over one item's token list (lines 29-39): every element is
      counted, so a token listed twice counts twice. */
  function CountTokens(s: Counting, c: string, toks: seq<string>): (r: Counting)
    requires Consistent(s)
    ensures Consistent(r)
    ensures r.tokens.Keys == s.tokens.Keys + Elems(toks)
    ensures forall t', c' :: Lookup(r.tokens, t', c') ==
              Lookup(s.tokens, t', c') + (if c' == c then multiset(toks)[t'] else 0)
    ensures r.categoryCounts == s.categoryCounts
    decreases |toks|
  {
    if toks == [] then s
    else
      assert toks == [toks[0]] + toks[1..];
      CountTokens(Bump(s, toks[0], c), c, toks[1..])
  }

  /** The loop over one category's items (lines 25-40). */
  function CountItems(s: Counting, c: string, items: seq<Document>): (r: Counting)
    requires Consistent(s)
    ensures Consistent(r)
    ensures r.tokens.Keys == s.tokens.Keys + TokensOf(items)
    ensures forall t', c' :: Lookup(r.tokens, t', c') ==
              Lookup(s.tokens, t', c') + (if c' == c then Occurrences(t', items) else 0)
    ensures r.categoryCounts == s.categoryCounts
    decreases |items|
  {
    if items == [] then
      assert forall t' :: Occurrences(t', items) == 0;
      s
    else CountItems(CountTokens(s, c, items[0].tokens), c, items[1..])
  }

  /** The loop over the categories (lines 20-41): each category's item count
      is recorded, then its items are counted. */
  function CountCategories(s: Counting, ds: DataSets.DataSet, categories: seq<string>): (r: Counting)
    requires Consistent(s)
    requires NoDup(categories)
    requires Elems(categories) <= ds.categorizedItems.Keys
    ensures Consistent(r)
    ensures r.tokens.Keys == s.tokens.Keys + TokensUnder(ds, categories)
    ensures forall t, c :: Lookup(r.tokens, t, c) ==
              Lookup(s.tokens, t, c) + (if c in categories then Occurrences(t, ds.categorizedItems[c]) else 0)
    ensures r.categoryCounts.Keys == s.categoryCounts.Keys + Elems(categories)
    ensures forall c :: c in categories ==> r.categoryCounts[c] == |ds.categorizedItems[c]|
    ensures forall c :: c in s.categoryCounts && c !in categories ==> r.categoryCounts[c] == s.categoryCounts[c]
    decreases |categories|
  {
    if categories == [] then s
    else
      var c := categories[0];
      var items := ds.categorizedItems[c];
      var s' := s.(categoryCounts := s.categoryCounts[c := |items|]);
      NoDupTail(categories);
      var mid := CountItems(s', c, items);
      var r := CountCategories(mid, ds, categories[1..]);
      assert forall t, c' :: Lookup(r.tokens, t, c') ==
              Lookup(s.tokens, t, c') + (if c' in categories then Occurrences(t, ds.categorizedItems[c']) else 0) by {
        forall t, c' ensures Lookup(r.tokens, t, c') ==
              Lookup(s.tokens, t, c') + (if c' in categories then Occurrences(t, ds.categorizedItems[c']) else 0)
        {
          assert c' in categories <==> c' == c || c' in categories[1..];
        }
      }
      r
  }

  /** The inner loop of the second pass (lines 55-65): for every token the
      entry count / total is written into the category's row. */
  function WriteRow(row: map<string, real>, tokens: Counts, c: string, total: nat, order: seq<string>): (r: map<string, real>)
    requires total > 0
    ensures r.Keys == row.Keys + Elems(order)
    ensures forall t :: t in r ==>
      r[t] == if t in order then Lookup(tokens, t, c) as real / total as real else row[t]
    decreases |order|
  {
    if order == [] then row
    else WriteRow(row[order[0] := Lookup(tokens, order[0], c) as real / total as real], tokens, c, total, order[1..])
  }

  /** The outer loop of the second pass (lines 53-66). A row is only created
      inside the token loop, so with an empty vocabulary no category gets one.
      A category with no items and a non-empty vocabulary is the 0/0 case. */
  function Normalise(s: Counting, categories: seq<string>, probs: Table): (r: Result<Table, TrainError>)
    requires Consistent(s)
    requires NoDup(categories)
    requires Elems(categories) <= s.categoryCounts.Keys
    requires forall c :: c in categories ==> c !in probs
    ensures r.Err? <==> s.vocabulary != [] && exists c :: c in categories && s.categoryCounts[c] == 0
    ensures r.Err? ==> r.error.category in categories && s.categoryCounts[r.error.category] == 0
    ensures r.Ok? ==> r.value.Keys == probs.Keys + (if s.vocabulary == [] then {} else Elems(categories))
    ensures r.Ok? ==> forall c :: c in probs ==> r.value[c] == probs[c]
    ensures r.Ok? ==> forall c, t :: c in categories && c in r.value && t in r.value[c] ==>
      s.categoryCounts[c] > 0 &&
      r.value[c][t] == Lookup(s.tokens, t, c) as real / s.categoryCounts[c] as real
    ensures r.Ok? ==> forall c :: c in categories && c in r.value ==> r.value[c].Keys == s.tokens.Keys
    decreases |categories|
  {
    if categories == [] then Ok(probs)
    else
      var c := categories[0];
      NoDupTail(categories);
      if s.vocabulary == [] then Normalise(s, categories[1..], probs)
      else if s.categoryCounts[c] == 0 then Err(EmptyCategory(c))
      else
        var row := WriteRow(map[], s.tokens, c, s.categoryCounts[c], s.vocabulary);
        Normalise(s, categories[1..], probs[c := row])
  }

  /** The first pass, run from empty tables over a whole training set. */
  function CountAll(ds: DataSets.DataSet): (s: Counting)
    requires DataSets.Valid(ds)
    ensures Consistent(s)
  {
    CountCategories(Counting([], map[], map[]), ds, ds.labels)
  }

  /** What the first pass leaves behind, in terms of the training set alone. */
  lemma CountAllSummary(ds: DataSets.DataSet)
    requires DataSets.Valid(ds)
    ensures CountAll(ds).tokens.Keys == Vocabulary(ds)
    ensures CountAll(ds).vocabulary == [] <==> Vocabulary(ds) == {}
    ensures forall t, c :: Lookup(CountAll(ds).tokens, t, c) == Occurrences(t, DataSets.ItemsOf(ds, c))
    ensures CountAll(ds).categoryCounts.Keys == ds.categorizedItems.Keys
    ensures forall c :: c in ds.categorizedItems ==>
              CountAll(ds).categoryCounts[c] == |ds.categorizedItems[c]|
  {
    var s := CountAll(ds);
    if s.vocabulary != [] {
      assert s.vocabulary[0] in s.tokens;
    }
    forall t, c ensures Lookup(s.tokens, t, c) == Occurrences(t, DataSets.ItemsOf(ds, c)) {
      assert c in ds.labels <==> c in ds.categorizedItems;
      if c !in ds.categorizedItems {
        assert Occurrences(t, []) == 0;
      }
    }
  }

  /** `train` on a fresh classifier. It fails exactly when the vocabulary is
      non-empty and some category has no items. Otherwise the counts are the
      number of occurrences of each token in each category's token lists and
      the category counts are the item counts. */
  function Train(cl: Classifier, ds: DataSets.DataSet): (r: Result<Classifier, TrainError>)
    requires Untrained(cl)
    requires DataSets.Valid(ds)
    ensures r.Err? <==>
      Vocabulary(ds) != {} && exists c :: c in ds.categorizedItems && |ds.categorizedItems[c]| == 0
    ensures r.Err? ==>
      r.error.category in ds.categorizedItems && |ds.categorizedItems[r.error.category]| == 0
    ensures r.Ok? ==> Valid(r.value) && r.value.options == cl.options
    ensures r.Ok? ==> r.value.tokens.Keys == Vocabulary(ds)
    ensures r.Ok? ==> forall t, c :: Lookup(r.value.tokens, t, c) == Occurrences(t, DataSets.ItemsOf(ds, c))
    ensures r.Ok? ==> r.value.categoryCounts.Keys == ds.categorizedItems.Keys
    ensures r.Ok? ==> forall c :: c in ds.categorizedItems ==>
      r.value.categoryCounts[c] == |ds.categorizedItems[c]|
  {
    var s := CountAll(ds);
    TrainOutcome(ds);
    match Normalise(s, ds.labels, map[])
    case Err(e) => Err(e)
    case Ok(p) =>
      TrainedShape(cl, ds, p);
      Ok(Trained(cl, s, ds.labels, p))
  }

  /** The classifier the second pass leaves behind (lines 40-66). */
  function Trained(cl: Classifier, s: Counting, labels: seq<string>, p: Table): (r: Classifier)
    ensures r.options == cl.options
    ensures Elems(r.categories) <= Elems(labels)
    ensures (&& Consistent(s) && NoDup(labels)
             && p.Keys == (if s.vocabulary == [] then {} else Elems(labels))
             && forall c :: c in p ==> p[c].Keys == s.tokens.Keys) ==> Valid(r)
  {
    cl.(vocabulary := s.vocabulary, tokens := s.tokens, categoryCounts := s.categoryCounts,
        categories := if s.vocabulary == [] then [] else labels, probabilities := p)
  }

  /** When the second pass fails: a non-empty vocabulary and a category
      without items. */
  lemma TrainOutcome(ds: DataSets.DataSet)
    requires DataSets.Valid(ds)
    ensures var n := Normalise(CountAll(ds), ds.labels, map[]);
      n.Err? <==> Vocabulary(ds) != {} && exists c :: c in ds.categorizedItems && |ds.categorizedItems[c]| == 0
    ensures var n := Normalise(CountAll(ds), ds.labels, map[]);
      n.Err? ==> n.error.category in ds.categorizedItems && |ds.categorizedItems[n.error.category]| == 0
  {
    var s := CountAll(ds);
    CountAllSummary(ds);
    assert forall c :: c in ds.labels <==> c in ds.categorizedItems;
  }

  /** What a successful second pass leaves in the classifier. */
  lemma TrainedShape(cl: Classifier, ds: DataSets.DataSet, p: Table)
    requires Untrained(cl) && DataSets.Valid(ds)
    requires Normalise(CountAll(ds), ds.labels, map[]) == Ok(p)
    ensures var r := Trained(cl, CountAll(ds), ds.labels, p);
      Valid(r) && r.options == cl.options && r.tokens.Keys == Vocabulary(ds)
    ensures var r := Trained(cl, CountAll(ds), ds.labels, p);
      forall t, c :: Lookup(r.tokens, t, c) == Occurrences(t, DataSets.ItemsOf(ds, c))
    ensures var r := Trained(cl, CountAll(ds), ds.labels, p);
      r.categoryCounts.Keys == ds.categorizedItems.Keys &&
      forall c :: c in ds.categorizedItems ==> r.categoryCounts[c] == |ds.categorizedItems[c]|
  {
    CountAllSummary(ds);
  }

  /** The table `train` produces: when any token was seen, every category of
      the training set gets a row over the whole vocabulary, and each entry is
      the token's occurrence count in the category over the category's item
      count (0 when the token never occurs there). */
  lemma TrainedProbabilities(cl: Classifier, ds: DataSets.DataSet)
    requires Untrained(cl) && DataSets.Valid(ds) && Train(cl, ds).Ok?
    ensures var p := Train(cl, ds).value.probabilities;
      p.Keys == (if Vocabulary(ds) == {} then {} else ds.categorizedItems.Keys)
    ensures var p := Train(cl, ds).value.probabilities;
      forall c :: c in p ==> p[c].Keys == Vocabulary(ds)
    ensures var p := Train(cl, ds).value.probabilities;
      forall c, t :: c in p && t in p[c] ==>
        |ds.categorizedItems[c]| > 0 &&
        p[c][t] == Occurrences(t, ds.categorizedItems[c]) as real / |ds.categorizedItems[c]| as real
  {
    var s := CountAll(ds);
    CountAllSummary(ds);
    var p := Train(cl, ds).value.probabilities;
    assert Normalise(s, ds.labels, map[]) == Ok(p);
    forall c, t | c in p && t in p[c]
      ensures p[c][t] == Occurrences(t, ds.categorizedItems[c]) as real / |ds.categorizedItems[c]| as real
    {
      assert c in ds.labels;
      assert Lookup(s.tokens, t, c) == Occurrences(t, DataSets.ItemsOf(ds, c));
    }
  }

  /** When no token list repeats a token, counting occurrences counts the
      documents that contain the token: at most all of them, all of them
      exactly when every document has it, none exactly when no document has it. */
  lemma {:induction false} OccurrencesCountDocuments(t: string, docs: seq<Document>)
    requires forall i :: 0 <= i < |docs| ==> NoDup(docs[i].tokens)
    ensures Occurrences(t, docs) == Containing(t, docs) <= |docs|
    ensures Containing(t, docs) == |docs| <==> forall i :: 0 <= i < |docs| ==> t in docs[i].tokens
    ensures Containing(t, docs) == 0 <==> forall i :: 0 <= i < |docs| ==> t !in docs[i].tokens
    decreases |docs|
  {
    if docs != [] {
      NoDupOccursOnce(docs[0].tokens, t);
      assert forall i :: 0 <= i < |docs[1..]| ==> docs[1..][i] == docs[i + 1];
      OccurrencesCountDocuments(t, docs[1..]);
    }
  }

  /** Training succeeds on a set whose every category has an item, and each
      entry of the table is then the token's count over the category's item
      count. */
  lemma TrainedEntry(cl: Classifier, ds: DataSets.DataSet, c: string, t: string)
    requires Untrained(cl) && DataSets.Valid(ds)
    requires forall c' :: c' in ds.categorizedItems ==> |ds.categorizedItems[c']| > 0
    requires c in ds.categorizedItems && t in Vocabulary(ds)
    ensures Train(cl, ds).Ok?
    ensures c in Train(cl, ds).value.probabilities && t in Train(cl, ds).value.probabilities[c]
    ensures Train(cl, ds).value.probabilities[c][t] ==
            Occurrences(t, ds.categorizedItems[c]) as real / |ds.categorizedItems[c]| as real
  {
    assert Train(cl, ds).Ok? by {
      TrainedProbabilities(cl, ds);
    }
    TrainedProbabilities(cl, ds);
  }

  /** The occurrences per item of each token of `tokens` in `items` (lines
      57-59). Occurrences count every element of every token list, so this is
      the share of items holding the token only when the lists are
      duplicate-free (`OccurrencesCountDocuments`). */
  function PerItemRates(items: seq<Document>, tokens: set<string>): (m: map<string, real>)
    requires |items| > 0
    ensures m.Keys == tokens
  {
    map t | t in tokens :: Occurrences(t, items) as real / |items| as real
  }

  /** A whole trained row: when every category has an item and the
      vocabulary is not empty, the row of each category is its occurrences per
      item over the vocabulary. */
  lemma TrainedRow(cl: Classifier, ds: DataSets.DataSet, c: string)
    requires Untrained(cl) && DataSets.Valid(ds)
    requires forall c' :: c' in ds.categorizedItems ==> |ds.categorizedItems[c']| > 0
    requires c in ds.categorizedItems && Vocabulary(ds) != {}
    ensures Train(cl, ds).Ok?
    ensures c in Train(cl, ds).value.probabilities
    ensures Train(cl, ds).value.probabilities[c] == PerItemRates(ds.categorizedItems[c], Vocabulary(ds))
  {
    var expected := PerItemRates(ds.categorizedItems[c], Vocabulary(ds));
    assert Train(cl, ds).Ok? && c in Train(cl, ds).value.probabilities
        && Train(cl, ds).value.probabilities[c].Keys == expected.Keys by {
      TrainedProbabilities(cl, ds);
    }
    var row := Train(cl, ds).value.probabilities[c];
    forall t | t in expected
      ensures row[t] == expected[t]
    {
      TrainedEntry(cl, ds, c, t);
    }
    MapExtensionality(row, expected);
  }

  /** With duplicate-free token lists, every trained entry lies in [0, 1]; it
      is 1 exactly when every item of the category has the token and 0 exactly
      when none has it. */
  lemma TrainedEntryBounds(cl: Classifier, ds: DataSets.DataSet, c: string, t: string)
    requires Untrained(cl) && DataSets.Valid(ds) && DataSets.DuplicateFree(ds)
    requires forall c' :: c' in ds.categorizedItems ==> |ds.categorizedItems[c']| > 0
    requires c in ds.categorizedItems && t in Vocabulary(ds)
    ensures Train(cl, ds).Ok?
    ensures c in Train(cl, ds).value.probabilities && t in Train(cl, ds).value.probabilities[c]
    ensures var p := Train(cl, ds).value.probabilities[c][t];
      0.0 <= p <= 1.0
    ensures var p := Train(cl, ds).value.probabilities[c][t];
      p == 1.0 <==> forall i :: 0 <= i < |ds.categorizedItems[c]| ==> t in ds.categorizedItems[c][i].tokens
    ensures var p := Train(cl, ds).value.probabilities[c][t];
      p == 0.0 <==> forall i :: 0 <= i < |ds.categorizedItems[c]| ==> t !in ds.categorizedItems[c][i].tokens
  {
    TrainedEntry(cl, ds, c, t);
    var p := Train(cl, ds).value.probabilities[c][t];
    var docs := ds.categorizedItems[c];
    OccurrencesCountDocuments(t, docs);
    RatioOfCounts(Containing(t, docs), |docs|);
  }

  /** With duplicate-free token lists, the whole trained table lies in [0, 1]. */
  lemma TrainedTableInUnitRange(cl: Classifier, ds: DataSets.DataSet)
    requires Untrained(cl) && DataSets.Valid(ds) && DataSets.DuplicateFree(ds)
    requires Train(cl, ds).Ok?
    ensures UnitTable(Train(cl, ds).value)
  {
    var p := Train(cl, ds).value.probabilities;
    TrainedProbabilities(cl, ds);
    forall c, t | c in p && t in p[c] ensures 0.0 <= p[c][t] <= 1.0 {
      TrainedEntryBounds(cl, ds, c, t);
    }
  }
}

=== FILE: validation.dfy ===
/** `Classifier.validate` (lib/classifier.js:69-118): classify every item of
    a labeled test set, apply the low-confidence fallback, and tally the
    outcome.

    As written, the per-category helper is called as a plain function
    (line 78), so inside it `this` (lines 89, 91-92) is not the classifier and
    `this.classify` is not a function: the source throws a TypeError on the
    first item of any non-empty test set. `ValidateAsWritten` models that;
    `Validate` models the evident intent, with the classifier passed
    explicitly as the receiver. */
module Validation {
  import opened Wrappers
  import opened Collections
  import opened Documents
  import DataSets
  import opened Model
  import opened Scoring

  /** The result is not confident enough (line 91). A `probability` the
      source computes as NaN (`None` here) fails the `<=` test. */
  predicate LowConfidence(opts: Options, res: Classification)
  {
    res.probability.Some? && res.probability.value <= opts.probabilityThreshold
  }

  /** A default category that `this.defaultCategory || ...` (line 92)
      would pick: one is configured and it is not the empty string. */
  predicate HasDefault(opts: Options)
  {
    opts.defaultCategory.Some? && opts.defaultCategory.value != ""
  }

  /** The category a validation run counts as predicted (lines 90-93): the
      default category replaces a low-confidence prediction when one is
      configured; otherwise (no default, or the falsy empty string) the
      classifier's choice stands. */
  function Predict(opts: Options, res: Classification): (p: string)
    ensures LowConfidence(opts, res) && HasDefault(opts) ==> p == opts.defaultCategory.value
    ensures !LowConfidence(opts, res) || !HasDefault(opts) ==> p == res.category
  {
    if LowConfidence(opts, res) then
      match opts.defaultCategory
      case Some(d) => if d != "" then d else res.category
      case None => res.category
    else res.category
  }

  /** The category predicted for one item by a classifier (lines 89-93). */
  function PredictItem(cl: Classifier, item: Document): (r: Result<string, ClassifyError>)
    requires Valid(cl)
    ensures r.Err? <==> |cl.categories| < 2
    ensures r.Err? ==> r.error == InsufficientCategories(|cl.categories|)
    ensures r.Ok? ==> r.value in cl.probabilities || Some(r.value) == cl.options.defaultCategory
    ensures r.Ok? ==> r.value == Predict(cl.options, Classify(cl, item).value)
  {
    match Classify(cl, item)
    case Err(e) => Err(e)
    case Ok(res) => Ok(Predict(cl.options, res))
  }

  /** The prediction for one item, or nothing when `classify` fails. */
  function Verdict(cl: Classifier, item: Document): Option<string>
    requires Valid(cl)
  {
    match PredictItem(cl, item)
    case Err(_) => None
    case Ok(p) => Some(p)
  }

  /** How many of `items`, labeled `category`, are predicted as `category`. */
  function CorrectIn(cl: Classifier, category: string, items: seq<Document>): nat
    requires Valid(cl)
  {
    if items == [] then 0
    else (if Verdict(cl, items[0]) == Some(category) then 1 else 0) + CorrectIn(cl, category, items[1..])
  }

  /** The ids, in order, of the `items` labeled `category` that are predicted
      as some other category. */
  function WrongIdsIn(cl: Classifier, category: string, items: seq<Document>): seq<string>
    requires Valid(cl)
  {
    if items == [] then []
    else
      var v := Verdict(cl, items[0]);
      (if v.Some? && v.value != category then [items[0].id] else []) + WrongIdsIn(cl, category, items[1..])
  }

  /** How many of `items`, labeled `category`, are wrongly predicted as `c`. */
  function BlamedIn(cl: Classifier, c: string, category: string, items: seq<Document>): nat
    requires Valid(cl)
  {
    if items == [] then 0
    else (if c != category && Verdict(cl, items[0]) == Some(c) then 1 else 0) + BlamedIn(cl, c, category, items[1..])
  }

  /** `CorrectIn` summed over the items of each of `categories`. */
  function CorrectUnder(cl: Classifier, ts: DataSets.DataSet, categories: seq<string>): nat
    requires Valid(cl)
  {
    if categories == [] then 0
    else CorrectIn(cl, categories[0], DataSets.ItemsOf(ts, categories[0])) + CorrectUnder(cl, ts, categories[1..])
  }

  /** `WrongIdsIn` concatenated over `categories`, in order. */
  function WrongIdsUnder(cl: Classifier, ts: DataSets.DataSet, categories: seq<string>): seq<string>
    requires Valid(cl)
  {
    if categories == [] then []
    else WrongIdsIn(cl, categories[0], DataSets.ItemsOf(ts, categories[0])) + WrongIdsUnder(cl, ts, categories[1..])
  }

  /** `BlamedIn` summed over `categories`. */
  function BlamedUnder(cl: Classifier, c: string, ts: DataSets.DataSet, categories: seq<string>): nat
    requires Valid(cl)
  {
    if categories == [] then 0
    else BlamedIn(cl, c, categories[0], DataSets.ItemsOf(ts, categories[0])) + BlamedUnder(cl, c, ts, categories[1..])
  }

  /** The running counters of lines 70-74. */
  datatype Tally = Tally(total: nat, correct: nat, wrong: nat, wrongCategories: map<string, nat>, wrongItems: seq<string>)

  /** The object `this` refers to inside the per-category helper. */
  datatype Receiver = TheClassifier(cl: Classifier) | Unbound

  datatype ValidationError =
    | ClassifyFailed(cause: ClassifyError)
    | ClassifyIsNotAFunction

  predicate WellFormed(recv: Receiver)
  {
    recv.TheClassifier? ==> Valid(recv.cl)
  }

  /** Classifying through this receiver fails on every item. */
  predicate AlwaysFails(recv: Receiver)
  {
    recv.Unbound? || |recv.cl.categories| < 2
  }

  /** The tallies agree with each other: every item is either correct or
      wrong, every wrong item left its id and one count under its predicted
      category, a category has a counter only once some item was wrongly
      predicted as it (lines 97-98), and every predicted category is a
      trained one or the default. */
  ghost predicate Balanced(t: Tally, recv: Receiver)
  {
    && t.correct + t.wrong == t.total
    && |t.wrongItems| == t.wrong
    && SumValues(t.wrongCategories) == t.wrong
    && (forall c :: c in t.wrongCategories ==> t.wrongCategories[c] > 0)
    && (recv.TheClassifier? ==>
          forall c :: c in t.wrongCategories ==>
            c in recv.cl.probabilities || Some(c) == recv.cl.options.defaultCategory)
  }

  /** Count one misclassified item (lines 96-103): its id joins the wrong
      items and its predicted category's counter goes up by one. */
  function RecordWrong(t: Tally, predicted: string, id: string): (r: Tally)
    ensures r.total == t.total + 1 && r.correct == t.correct && r.wrong == t.wrong + 1
    ensures r.wrongItems == t.wrongItems + [id]
    ensures r.wrongCategories.Keys == t.wrongCategories.Keys + {predicted}
    ensures SumValues(r.wrongCategories) == SumValues(t.wrongCategories) + 1
    ensures forall c :: CounterOf(r.wrongCategories, c) ==
              CounterOf(t.wrongCategories, c) + (if c == predicted then 1 else 0)
  {
    SumValuesIncrement(t.wrongCategories, predicted);
    t.(total := t.total + 1, wrong := t.wrong + 1,
       wrongCategories := t.wrongCategories[predicted := CounterOf(t.wrongCategories, predicted) + 1],
       wrongItems := t.wrongItems + [id])
  }

  /** One item (lines 87-104). */
  function ValidateItem(recv: Receiver, t: Tally, category: string, item: Document): (r: Result<Tally, ValidationError>)
    requires WellFormed(recv)
    ensures r.Err? <==> AlwaysFails(recv)
    ensures r.Ok? ==> r.value.total == t.total + 1
    ensures r.Ok? && Balanced(t, recv) ==> Balanced(r.value, recv)
    ensures r.Ok? && recv.TheClassifier? ==>
      var v := Verdict(recv.cl, item);
      && r.value.correct == t.correct + (if v == Some(category) then 1 else 0)
      && r.value.wrongItems == t.wrongItems + (if v != Some(category) then [item.id] else [])
      && forall c :: CounterOf(r.value.wrongCategories, c) ==
           CounterOf(t.wrongCategories, c) + (if c != category && v == Some(c) then 1 else 0)
  {
    match recv
    case Unbound => Err(ClassifyIsNotAFunction)
    case TheClassifier(cl) =>
      match PredictItem(cl, item)
      case Err(e) => Err(ClassifyFailed(e))
      case Ok(predicted) => Ok(Answer(t, category, predicted, item.id))
  }

  /** Tally one answered item labeled `category` (lines 94-104): a prediction
      equal to the label is correct; any other is recorded as wrong. */
  function Answer(t: Tally, category: string, predicted: string, id: string): (r: Tally)
    ensures r.total == t.total + 1
    ensures r.correct == t.correct + (if predicted == category then 1 else 0)
    ensures r.wrong == t.wrong + (if predicted == category then 0 else 1)
    ensures r.wrongItems == t.wrongItems + (if predicted == category then [] else [id])
    ensures r.wrongCategories.Keys == t.wrongCategories.Keys + (if predicted == category then {} else {predicted})
    ensures SumValues(r.wrongCategories) == SumValues(t.wrongCategories) + (if predicted == category then 0 else 1)
    ensures forall c :: CounterOf(r.wrongCategories, c) ==
              CounterOf(t.wrongCategories, c) + (if c != category && c == predicted then 1 else 0)
  {
    if predicted == category then t.(total := t.total + 1, correct := t.correct + 1)
    else RecordWrong(t, predicted, id)
  }

  /** The loop over one category's items (lines 85-106). */
  function ValidateItems(recv: Receiver, t: Tally, category: string, items: seq<Document>): (r: Result<Tally, ValidationError>)
    requires WellFormed(recv)
    ensures r.Err? <==> AlwaysFails(recv) && |items| > 0
    ensures r.Ok? ==> r.value.total == t.total + |items|
    ensures r.Ok? && Balanced(t, recv) ==> Balanced(r.value, recv)
    decreases |items|
  {
    if items == [] then Ok(t)
    else
      match ValidateItem(recv, t, category, items[0])
      case Err(e) => Err(e)
      case Ok(t') => ValidateItems(recv, t', category, items[1..])
  }

  /** The loop over the test set's categories (lines 77-79). */
  function ValidateCategories(recv: Receiver, t: Tally, ts: DataSets.DataSet, categories: seq<string>): (r: Result<Tally, ValidationError>)
    requires WellFormed(recv)
    ensures r.Err? <==> AlwaysFails(recv) && DataSets.CountItemsUnder(ts, categories) > 0
    ensures r.Ok? ==> r.value.total == t.total + DataSets.CountItemsUnder(ts, categories)
    ensures r.Ok? && Balanced(t, recv) ==> Balanced(r.value, recv)
    decreases |categories|
  {
    if categories == [] then Ok(t)
    else
      match ValidateItems(recv, t, categories[0], DataSets.ItemsOf(ts, categories[0]))
      case Err(e) => Err(e)
      case Ok(t') => ValidateCategories(recv, t', ts, categories[1..])
  }

  /** Through the classifier, the loop over one category's items counts as
      correct exactly the items predicted as their label, lists the ids of the
      others in order, and charges each of those to its predicted category. */
  lemma ItemsTally(cl: Classifier, t: Tally, category: string, items: seq<Document>)
    requires Valid(cl)
    requires ValidateItems(TheClassifier(cl), t, category, items).Ok?
    ensures var r := ValidateItems(TheClassifier(cl), t, category, items).value;
      && r.correct == t.correct + CorrectIn(cl, category, items)
      && r.wrongItems == t.wrongItems + WrongIdsIn(cl, category, items)
      && forall c :: CounterOf(r.wrongCategories, c) ==
           CounterOf(t.wrongCategories, c) + BlamedIn(cl, c, category, items)
  {
    ItemsCorrect(cl, t, category, items);
    ItemsWrongIds(cl, t, category, items);
    forall c ensures CounterOf(ValidateItems(TheClassifier(cl), t, category, items).value.wrongCategories, c) ==
                     CounterOf(t.wrongCategories, c) + BlamedIn(cl, c, category, items) {
      ItemsCounter(cl, t, category, items, c);
    }
  }

  /** The correct count of `ItemsTally`. */
  lemma {:induction false} ItemsCorrect(cl: Classifier, t: Tally, category: string, items: seq<Document>)
    requires Valid(cl)
    requires ValidateItems(TheClassifier(cl), t, category, items).Ok?
    ensures ValidateItems(TheClassifier(cl), t, category, items).value.correct ==
            t.correct + CorrectIn(cl, category, items)
    decreases |items|
  {
    if items != [] {
      var t' := ValidateItem(TheClassifier(cl), t, category, items[0]).value;
      ItemsCorrect(cl, t', category, items[1..]);
    }
  }

  /** The wrong ids of `ItemsTally`. */
  lemma {:induction false} ItemsWrongIds(cl: Classifier, t: Tally, category: string, items: seq<Document>)
    requires Valid(cl)
    requires ValidateItems(TheClassifier(cl), t, category, items).Ok?
    ensures ValidateItems(TheClassifier(cl), t, category, items).value.wrongItems ==
            t.wrongItems + WrongIdsIn(cl, category, items)
    decreases |items|
  {
    if items != [] {
      var t' := ValidateItem(TheClassifier(cl), t, category, items[0]).value;
      var v := Verdict(cl, items[0]);
      var ids := if v != Some(category) then [items[0].id] else [];
      assert v.Some? && t'.wrongItems == t.wrongItems + ids;
      assert WrongIdsIn(cl, category, items) == ids + WrongIdsIn(cl, category, items[1..]);
      assert ValidateItems(TheClassifier(cl), t, category, items) ==
             ValidateItems(TheClassifier(cl), t', category, items[1..]);
      ItemsWrongIds(cl, t', category, items[1..]);
      var rest := WrongIdsIn(cl, category, items[1..]);
      ConcatAssoc(t.wrongItems, ids, rest);
    }
  }

  /** The counter of one category in `ItemsTally`. */
  lemma {:induction false} ItemsCounter(cl: Classifier, t: Tally, category: string, items: seq<Document>, c: string)
    requires Valid(cl)
    requires ValidateItems(TheClassifier(cl), t, category, items).Ok?
    ensures CounterOf(ValidateItems(TheClassifier(cl), t, category, items).value.wrongCategories, c) ==
            CounterOf(t.wrongCategories, c) + BlamedIn(cl, c, category, items)
    decreases |items|
  {
    if items != [] {
      var t' := ValidateItem(TheClassifier(cl), t, category, items[0]).value;
      ItemsCounter(cl, t', category, items[1..], c);
    }
  }

  /** The same over the loop across the test set's categories. */
  lemma CategoriesTally(cl: Classifier, t: Tally, ts: DataSets.DataSet, categories: seq<string>)
    requires Valid(cl)
    requires ValidateCategories(TheClassifier(cl), t, ts, categories).Ok?
    ensures var r := ValidateCategories(TheClassifier(cl), t, ts, categories).value;
      && r.correct == t.correct + CorrectUnder(cl, ts, categories)
      && r.wrongItems == t.wrongItems + WrongIdsUnder(cl, ts, categories)
      && forall c :: CounterOf(r.wrongCategories, c) ==
           CounterOf(t.wrongCategories, c) + BlamedUnder(cl, c, ts, categories)
  {
    CategoriesCorrect(cl, t, ts, categories);
    CategoriesWrongIds(cl, t, ts, categories);
    forall c ensures CounterOf(ValidateCategories(TheClassifier(cl), t, ts, categories).value.wrongCategories, c) ==
                     CounterOf(t.wrongCategories, c) + BlamedUnder(cl, c, ts, categories) {
      CategoriesCounter(cl, t, ts, categories, c);
    }
  }

  /** The correct count of `CategoriesTally`. */
  lemma {:induction false} CategoriesCorrect(cl: Classifier, t: Tally, ts: DataSets.DataSet, categories: seq<string>)
    requires Valid(cl)
    requires ValidateCategories(TheClassifier(cl), t, ts, categories).Ok?
    ensures ValidateCategories(TheClassifier(cl), t, ts, categories).value.correct ==
            t.correct + CorrectUnder(cl, ts, categories)
    decreases |categories|
  {
    if categories != [] {
      var items := DataSets.ItemsOf(ts, categories[0]);
      var t' := ValidateItems(TheClassifier(cl), t, categories[0], items).value;
      ItemsCorrect(cl, t, categories[0], items);
      CategoriesCorrect(cl, t', ts, categories[1..]);
    }
  }

  /** The wrong ids of `CategoriesTally`. */
  lemma {:induction false} CategoriesWrongIds(cl: Classifier, t: Tally, ts: DataSets.DataSet, categories: seq<string>)
    requires Valid(cl)
    requires ValidateCategories(TheClassifier(cl), t, ts, categories).Ok?
    ensures ValidateCategories(TheClassifier(cl), t, ts, categories).value.wrongItems ==
            t.wrongItems + WrongIdsUnder(cl, ts, categories)
    decreases |categories|
  {
    if categories != [] {
      var items := DataSets.ItemsOf(ts, categories[0]);
      var t' := ValidateItems(TheClassifier(cl), t, categories[0], items).value;
      ItemsWrongIds(cl, t, categories[0], items);
      CategoriesWrongIds(cl, t', ts, categories[1..]);
      ConcatAssoc(t.wrongItems, WrongIdsIn(cl, categories[0], items), WrongIdsUnder(cl, ts, categories[1..]));
    }
  }

  /** The counter of one category in `CategoriesTally`. */
  lemma {:induction false} CategoriesCounter(cl: Classifier, t: Tally, ts: DataSets.DataSet, categories: seq<string>, c: string)
    requires Valid(cl)
    requires ValidateCategories(TheClassifier(cl), t, ts, categories).Ok?
    ensures CounterOf(ValidateCategories(TheClassifier(cl), t, ts, categories).value.wrongCategories, c) ==
            CounterOf(t.wrongCategories, c) + BlamedUnder(cl, c, ts, categories)
    decreases |categories|
  {
    if categories != [] {
      var items := DataSets.ItemsOf(ts, categories[0]);
      var t' := ValidateItems(TheClassifier(cl), t, categories[0], items).value;
      ItemsCounter(cl, t, categories[0], items, c);
      CategoriesCounter(cl, t', ts, categories[1..], c);
    }
  }

  /** What `validate` returns. `accuracy` is `None` where the source
      computes 0/0. */
  datatype Report = Report(
    total: nat,
    correct: nat,
    wrong: nat,
    accuracy: Option<real>,
    wrongCategories: map<string, nat>,
    wrongItems: seq<string>)

  /** The whole run through a given receiver (lines 70-117). */
  function Run(recv: Receiver, ts: DataSets.DataSet): (r: Result<Report, ValidationError>)
    requires WellFormed(recv) && DataSets.Valid(ts)
    ensures r.Err? <==> AlwaysFails(recv) && DataSets.TotalItems(ts) > 0
    ensures r.Ok? ==> r.value.total == DataSets.TotalItems(ts)
    ensures r.Ok? ==> r.value.correct + r.value.wrong == r.value.total
    ensures r.Ok? ==> |r.value.wrongItems| == r.value.wrong
    ensures r.Ok? ==> SumValues(r.value.wrongCategories) == r.value.wrong
    ensures r.Ok? ==> forall c :: c in r.value.wrongCategories ==> r.value.wrongCategories[c] > 0
    ensures r.Ok? && recv.TheClassifier? ==> forall c :: c in r.value.wrongCategories ==>
              c in recv.cl.probabilities || Some(c) == recv.cl.options.defaultCategory
    ensures r.Ok? && recv.TheClassifier? ==>
      && r.value.correct == CorrectUnder(recv.cl, ts, ts.labels)
      && r.value.wrongItems == WrongIdsUnder(recv.cl, ts, ts.labels)
      && forall c :: CounterOf(r.value.wrongCategories, c) == BlamedUnder(recv.cl, c, ts, ts.labels)
    ensures r.Ok? ==>
      r.value.accuracy == (if r.value.total == 0 then None else Some(r.value.correct as real / r.value.total as real))
  {
    match ValidateCategories(recv, Tally(0, 0, 0, map[], []), ts, ts.labels)
    case Err(e) => Err(e)
    case Ok(t) =>
      FinishedTally(recv, ts, t);
      Ok(ReportOf(t))
  }

  /** What a completed loop over the test set leaves in the tallies. */
  lemma FinishedTally(recv: Receiver, ts: DataSets.DataSet, t: Tally)
    requires WellFormed(recv)
    requires ValidateCategories(recv, Tally(0, 0, 0, map[], []), ts, ts.labels) == Ok(t)
    ensures t.total == DataSets.TotalItems(ts) && Balanced(t, recv)
    ensures recv.TheClassifier? ==>
      && t.correct == CorrectUnder(recv.cl, ts, ts.labels)
      && t.wrongItems == WrongIdsUnder(recv.cl, ts, ts.labels)
      && forall c :: CounterOf(t.wrongCategories, c) == BlamedUnder(recv.cl, c, ts, ts.labels)
  {
    FinishedBalanced(recv, ts, t);
    if recv.TheClassifier? {
      FinishedCounts(recv.cl, ts, t);
    }
  }

  /** From zero tallies, a completed loop counts every item once and leaves
      the tallies balanced. */
  lemma FinishedBalanced(recv: Receiver, ts: DataSets.DataSet, t: Tally)
    requires WellFormed(recv)
    requires ValidateCategories(recv, Tally(0, 0, 0, map[], []), ts, ts.labels) == Ok(t)
    ensures t.total == DataSets.TotalItems(ts) && Balanced(t, recv)
  {
    StartBalanced(recv);
  }

  /** The zero tallies of lines 70-74 are balanced. */
  lemma StartBalanced(recv: Receiver)
    ensures Balanced(Tally(0, 0, 0, map[], []), recv)
  {
    assert SumValues(map[]) == 0;
  }

  /** Through the classifier, the counts a completed loop leaves are those of
      the predictions over the whole test set. */
  lemma FinishedCounts(cl: Classifier, ts: DataSets.DataSet, t: Tally)
    requires Valid(cl)
    requires ValidateCategories(TheClassifier(cl), Tally(0, 0, 0, map[], []), ts, ts.labels) == Ok(t)
    ensures t.correct == CorrectUnder(cl, ts, ts.labels)
    ensures t.wrongItems == WrongIdsUnder(cl, ts, ts.labels)
    ensures forall c :: CounterOf(t.wrongCategories, c) == BlamedUnder(cl, c, ts, ts.labels)
  {
    var start := Tally(0, 0, 0, map[], []);
    CategoriesTally(cl, start, ts, ts.labels);
    assert forall c :: CounterOf(start.wrongCategories, c) == 0;
    assert start.wrongItems + WrongIdsUnder(cl, ts, ts.labels) == WrongIdsUnder(cl, ts, ts.labels);
  }

  /** The report of a finished tally (lines 110-117). The accuracy is the
      share of correct answers among the items answered (line 114): absent
      when nothing was answered, otherwise a value in [0, 1] that is 1 exactly
      when no answer was wrong. */
  function ReportOf(t: Tally): (r: Report)
    ensures r.total == t.total && r.correct == t.correct && r.wrong == t.wrong
    ensures r.wrongCategories == t.wrongCategories && r.wrongItems == t.wrongItems
    ensures r.accuracy.Some? <==> t.correct + t.wrong > 0
    ensures r.accuracy.Some? ==>
      && r.accuracy.value * (t.correct + t.wrong) as real == t.correct as real
      && 0.0 <= r.accuracy.value <= 1.0
      && (r.accuracy.value == 1.0 <==> t.wrong == 0)
    ensures t.correct + t.wrong == t.total ==>
      r.accuracy == (if t.total == 0 then None else Some(t.correct as real / t.total as real))
  {
    var answered := t.correct + t.wrong;
    if answered == 0 then
      Report(t.total, t.correct, t.wrong, None, t.wrongCategories, t.wrongItems)
    else
      RatioOfCounts(t.correct, answered);
      Report(t.total, t.correct, t.wrong, Some(t.correct as real / answered as real),
             t.wrongCategories, t.wrongItems)
  }

  /** `validate` with the classifier as the receiver of `classify`. It fails
      only when the classifier has fewer than two categories and the test set
      is not empty. Otherwise every test item is counted once, as correct or
      as wrong; the wrong items' ids and the per-category wrong counts both
      account for every wrong item; and the accuracy is correct / total,
      absent for an empty test set. */
  function Validate(cl: Classifier, ts: DataSets.DataSet): (r: Result<Report, ValidationError>)
    requires Valid(cl) && DataSets.Valid(ts)
    ensures r.Err? <==> |cl.categories| < 2 && DataSets.TotalItems(ts) > 0
    ensures r.Err? ==> r.error == ClassifyFailed(InsufficientCategories(|cl.categories|))
    ensures r.Ok? ==> r.value.total == DataSets.TotalItems(ts)
    ensures r.Ok? ==> r.value.correct + r.value.wrong == r.value.total
    ensures r.Ok? ==> |r.value.wrongItems| == r.value.wrong
    ensures r.Ok? ==> SumValues(r.value.wrongCategories) == r.value.wrong
    ensures r.Ok? ==> forall c :: c in r.value.wrongCategories ==> r.value.wrongCategories[c] > 0
    ensures r.Ok? ==> forall c :: c in r.value.wrongCategories ==>
              c in cl.probabilities || Some(c) == cl.options.defaultCategory
    ensures r.Ok? ==> r.value.correct == CorrectUnder(cl, ts, ts.labels)
    ensures r.Ok? ==> r.value.wrongItems == WrongIdsUnder(cl, ts, ts.labels)
    ensures r.Ok? ==> forall c :: CounterOf(r.value.wrongCategories, c) == BlamedUnder(cl, c, ts, ts.labels)
    ensures r.Ok? ==>
      r.value.accuracy == (if r.value.total == 0 then None else Some(r.value.correct as real / r.value.total as real))
  {
    var r := Run(TheClassifier(cl), ts);
    assert r.Err? ==> r.error == ClassifyFailed(InsufficientCategories(|cl.categories|)) by {
      if r.Err? {
        ErrorIsInsufficientCategories(cl, Tally(0, 0, 0, map[], []), ts, ts.labels);
      }
    }
    r
  }

  /** A failing run through the classifier always reports the
      insufficient-categories error of `classify`. */
  lemma {:induction false} ErrorIsInsufficientCategories(
    cl: Classifier, t: Tally, ts: DataSets.DataSet, categories: seq<string>)
    requires Valid(cl)
    requires ValidateCategories(TheClassifier(cl), t, ts, categories).Err?
    ensures ValidateCategories(TheClassifier(cl), t, ts, categories).error ==
            ClassifyFailed(InsufficientCategories(|cl.categories|))
    decreases |categories|
  {
    var recv := TheClassifier(cl);
    var items := DataSets.ItemsOf(ts, categories[0]);
    match ValidateItems(recv, t, categories[0], items)
    case Err(e) =>
      assert items != [];
      assert ValidateItem(recv, t, categories[0], items[0]).Err?;
    case Ok(t') =>
      ErrorIsInsufficientCategories(cl, t', ts, categories[1..]);
  }

  /** `validate` as written: `classify` is looked up on the wrong receiver. */
  function ValidateAsWritten(cl: Classifier, ts: DataSets.DataSet): (r: Result<Report, ValidationError>)
    requires DataSets.Valid(ts)
    ensures r.Err? <==> DataSets.TotalItems(ts) > 0
    ensures r.Err? ==> r.error == ClassifyIsNotAFunction
    ensures r.Ok? ==> r.value.total == 0 && r.value.accuracy.None?
  {
    var r := Run(Unbound, ts);
    assert r.Err? ==> r.error == ClassifyIsNotAFunction by {
      if r.Err? {
        UnboundErrors(Tally(0, 0, 0, map[], []), ts, ts.labels);
      }
    }
    r
  }

  lemma {:induction false} UnboundErrors(t: Tally, ts: DataSets.DataSet, categories: seq<string>)
    requires ValidateCategories(Unbound, t, ts, categories).Err?
    ensures ValidateCategories(Unbound, t, ts, categories).error == ClassifyIsNotAFunction
    decreases |categories|
  {
    match ValidateItems(Unbound, t, categories[0], DataSets.ItemsOf(ts, categories[0]))
    case Err(e) =>
    case Ok(t') => UnboundErrors(t', ts, categories[1..]);
  }
}

=== FILE: wrappers.dfy ===
/** Failure-carrying results used where the JavaScript code yields `null`,
    `NaN`, `Infinity` or throws. */
module Wrappers {

  /** A value that may be absent (`null`, `undefined`, or a falsy option). */
  datatype Option<+T> = None | Some(value: T)

  /** Either a computed value or the error lib/classifier.js runs into. */
  datatype Result<+T, +E> = Ok(value: T) | Err(error: E)
}
